=== FILE: README.md ===
# VivaCrochet shop core, modelled in Dafny

VivaCrochet is a Next.js crochet shop. This project models its buying path:

- the browser cart, in both of its copies: the `CartProvider` context and the standalone `useCart` hook;
- the server-side "pending order" cart of `addToCart` and `removeFromCart`;
- checkout with stock reservation (`createRazorpayOrder`) and the stock give-back (`restoreStockForOrder`);
- payment confirmation, by the client-side `verifyRazorpayPayment` and by the Razorpay webhook;
- the cart lines of `getCartLines` and of the checkout page;
- the admin product schema, the product deletion guard and the session and role gates.

The database is a value `Db(products, orders, items)`:

- products are a map from id to row;
- orders and order items are sequences, so a `findFirst` is the first match in sequence order;
- every server action is a pure function from a `Db` to a new `Db` and a result.

Effects the model cannot see are arguments:

- HMAC-SHA256 under the key secret is `mac`;
- `JSON.parse` is `parse`;
- the Razorpay REST call is `gateway`;
- a fresh database id is `newId`. Checkout and the lemmas that add an order require it to be unused; `addToCart` takes it without that requirement and uses it only when it creates an order.

A thrown error becomes an `Err` of the `Failure` datatype, and `redirect(path)` becomes `Redirect(path)`.

Modules follow the source files:

| module | file(s) |
|---|---|
| `Cart`, `CartHook` | hooks/cart-context.tsx, hooks/useCart.ts |
| `Auth` | lib/auth-utils.ts |
| `Store` | shared rows and the `Db` |
| `Checkout` | app/actions/orderActions.ts |
| `PendingCart` | app/actions/productActions.ts |
| `Payment` | app/actions/paymentActions.ts |
| `Webhook` | app/api/webhooks/razorpay/route.ts |
| `CartLines` | app/actions/cartActions.ts and the memo of components/user/CheckoutClient.tsx |
| `CheckoutFlow` | the payment handlers of components/user/CheckoutClient.tsx |
| `ProductForm` | the `ProductSchema` of components/admin/ProductForm.tsx |

### Behaviour of the code worth knowing

- **No ownership or status check on payment.** `verifyRazorpayPayment` never checks that the order is PENDING or that it belongs to the signed-in user. The webhook does not check either. The signature covers only the gateway's order and payment ids, not the shop order id (`Payment.SignatureIgnoresShopOrder`).
- **The charged amount can differ from the one shown.** The checkout page prices the cart from the product list fetched when the page rendered, while `createRazorpayOrder` reprices from the database and orders `max(1, floor(q))` units of each entry. A price change after rendering, or a zero-quantity entry left in localStorage (shown at 0, charged as 1), makes the two totals differ. `CheckoutFlow.ChargedAmountIsShownTotal` proves they agree when neither happens.
- **Restoring stock is unguarded.** `restoreStockForOrder` has no session or status check, so calling it twice gives the units back twice (`Checkout.RestoreTwiceAddsTwice`).
- **Failures leave the PENDING order behind.**
  - A failed verification gives the stock back but leaves the order PENDING.
  - A gateway failure after the transaction keeps both the PENDING order and the reserved stock.
- **The webhook fallback looks in the wrong column.**
  - Without a receipt, the webhook looks for an order whose `paymentId` equals the gateway order id, which the code never stores.
  - That path is also not idempotent: a redelivery marks the next order that matches (`Webhook.FallbackRedeliveryMarksAnother`).
  - A payment whose `order_id` is `null` makes the lookup ask for an order with no payment id. It marks the first such order PAID, whoever owns it (`Webhook.NullOrderIdMarksFirstUnpaid`).
  - An absent `order_id` drops the filter, so the first order of the table is marked (`Webhook.UndefinedOrderIdMarksFirstOrder`).

## Model

| member | source | states |
|---|---|---|
| Cart.Find | hooks/cart-context.tsx:60 | The index of the first entry for the product, and none exactly when no entry holds it |
| Cart.Add | hooks/cart-context.tsx:58-70 | If the product is held, every entry keeps its id and only that product gains one unit. Otherwise the old list is kept and `(p, 1)` is appended. |
| Cart.Remove | hooks/cart-context.tsx:72-82 | The list never grows and every remaining quantity is positive |
| Cart.Clear | hooks/cart-context.tsx:84 | Clearing yields the empty cart |
| Cart.AddKeepsWellFormed | hooks/cart-context.tsx:58-70 | `add` keeps product ids distinct and quantities at least one |
| Cart.RemoveKeepsWellFormed | hooks/cart-context.tsx:72-82 | `remove` on a cart with distinct ids yields distinct ids and positive quantities |
| Cart.RemoveAbsent | hooks/cart-context.tsx:72-82 | On a well-formed cart, removing a product that has no entry changes nothing |
| Cart.RemoveDecrements | hooks/cart-context.tsx:72-82 | On a well-formed cart, removing a product held more than once lowers that entry by one, in place |
| Cart.RemoveDropsEntry | hooks/cart-context.tsx:72-82 | On a well-formed cart, removing the last unit drops the entry and keeps the others in order |
| Cart.AddRemoveRoundTrip | hooks/cart-context.tsx:58-82 | `remove(add(c, p), p) == c` for every well-formed cart |
| Cart.GetQtyStored | hooks/cart-context.tsx:86-87 | On a cart with distinct ids, `getQty` is the quantity stored for the product, or 0 when it has no entry |
| Cart.GetQtyAfterAdd | hooks/cart-context.tsx:58-87 | `add` raises `getQty` of that product by exactly one |
| Cart.TotalItemsAfterAdd | hooks/cart-context.tsx:58-89 | On a cart with distinct ids, `add` raises `totalItems` by one |
| Cart.TotalItemsAfterRemove | hooks/cart-context.tsx:72-89 | On a well-formed cart, `remove` lowers `totalItems` by one exactly when the product is in the cart |
| Cart.ClearEmpties | hooks/cart-context.tsx:84-89 | After `clear`, every `getQty` is 0 and `totalItems` is 0 |
| CartHook.Has | hooks/useCart.ts:34 | The scan finds a match exactly when the cart holds the product |
| CartHook.Add | hooks/useCart.ts:32-44 | The hook's `add` gives the same list as the context's `add` |
| CartHook.Remove | hooks/useCart.ts:46-56 | The hook's map-then-filter gives the same list as the context's `remove`, with every quantity positive |
| CartHook.Clear | hooks/useCart.ts:58-61 | The hook's `clear` gives the same empty cart as the context's |
| CartHook.GetQty | hooks/useCart.ts:63-64 | The hook's `getQty` agrees with the context's |
| CartHook.TotalItems | hooks/useCart.ts:66 | The hook's `reduce` agrees with the context's `totalItems` |
| Auth.RequireAuth | lib/auth-utils.ts:16-24 | Fails exactly when there is no session, with a redirect to /sign-in; otherwise passes the session through |
| Auth.RequireAdminAuth | lib/auth-utils.ts:26-39 | Passes exactly when there is a session whose roles, with null read as empty, include "ADMIN". No session redirects to /sign-in; otherwise it redirects to /unauthorized. |
| Auth.SignedInUser | app/actions/paymentActions.ts:18-19 | The user id is returned exactly when there is a session with a non-empty id. No session redirects; an empty id fails with "Unauthorized". |
| Auth.FindUserRole | lib/auth-utils.ts:49-55 | A known user gets the one-element list of their role; an unknown user gets null |
| Auth.AdminGateMatchesRole | lib/auth-utils.ts:26-55 | With roles taken from `findUserRole`, the admin gate admits exactly the users whose role is "ADMIN" |
| Checkout.NormalizeQty | app/actions/orderActions.ts:32 | The ordered quantity is at least 1; it is the floor of any quantity of at least 1, and 1 below that |
| Checkout.BuildLines | app/actions/orderActions.ts:29-39 | Succeeds exactly when every id is in the catalogue. Line k carries item k's id, its normalised quantity and the product's current price. Otherwise it fails with "Product not found" naming the first missing id. |
| Checkout.Prepare | app/actions/orderActions.ts:17-41 | Succeeds exactly when the user is signed in, the cart is non-empty, every product exists and the priced total is positive. The lines are then priced from the catalogue. Each rejection is named: the session's failure, "Cart is empty", "Product not found" for the first missing id, and "Invalid total amount". |
| Checkout.Reserve | app/actions/orderActions.ts:44-59 | On success every product's stock is lowered by the units of its lines, and no key is added. A failure is "Insufficient stock" for one of the lines' products. |
| Checkout.ReserveNamesOffender | app/actions/orderActions.ts:44-58 | With whole positive quantities, the product a failed reservation names is missing or has less stock than all of its lines together |
| Checkout.ReserveSucceedsIff | app/actions/orderActions.ts:44-59 | The sequential compare-and-decrement succeeds exactly when every product's stock covers the sum of its lines |
| Checkout.ToItems | app/actions/orderActions.ts:70-81 | One order item per line, in line order, with the line's product, quantity and unit price |
| Checkout.ToItemsSums | app/actions/orderActions.ts:60-81 | The new items hold each product's line quantity, and their price sum is the order total |
| Checkout.Commit | app/actions/orderActions.ts:43-84 | The transaction succeeds exactly when every product's stock covers all of its lines together. It then appends one PENDING INR order with the line total and no payment id, and one item per line in line order, and lowers each stock by exactly its new items' units. Otherwise it fails with "Insufficient stock" naming a product whose stock cannot cover its lines. |
| Checkout.CreateRazorpayOrder | app/actions/orderActions.ts:16-115 | A rejected cart gives the validation's error and an uncovered stock gives "Insufficient stock" naming a product that is short, both with the database unchanged. Otherwise the order is placed and the gateway is asked for the priced total in INR with the new order id as receipt. Its reply decides the outcome: a created remote order is returned with the key id; a rejection leaves the placed order and fails. |
| Checkout.Restore | app/actions/orderActions.ts:119-126 | The batch succeeds exactly when every item's product exists, and then raises each stock by that product's item units |
| Checkout.RestoreStockForOrder | app/actions/orderActions.ts:117-127 | Succeeds exactly when every item of the order names an existing product, so an unknown or empty order succeeds and changes nothing. Orders and items are untouched. On success each product gains the units of the order's items; a failure is "Product not found" and changes nothing. |
| Checkout.RestoreAfterCheckout | app/actions/orderActions.ts:43-127 | Restoring right after a committed checkout puts every product row back exactly as before |
| Checkout.RestoreTwiceAddsTwice | app/actions/orderActions.ts:117-127 | A second restore of the same order succeeds and adds the same units again |
| PendingCart.DeleteProduct | app/actions/productActions.ts:38-64 | A referenced product is kept and the count is reported. The product is deleted exactly when it is unreferenced and present. An unreferenced, missing product gives the ERROR outcome. Otherwise nothing changes. No order item is left pointing at a missing product. |
| PendingCart.PendingIndex | app/actions/productActions.ts:79-81 | The first PENDING order of the user, or none when the user has none |
| PendingCart.ItemIndex | app/actions/productActions.ts:94-99 | The first item of that order for that product, or none |
| PendingCart.EnsurePending | app/actions/productActions.ts:79-92 | Reuses the user's first PENDING order, or appends a new empty PENDING order for the user |
| PendingCart.AddToCart | app/actions/productActions.ts:67-126 | Succeeds exactly when signed in and the product exists. A session failure is passed on: the redirect to /sign-in, or "Unauthorized". An unknown product gives "Product not found" and errors change nothing. On success the user's first PENDING order, or a new one when there is none, gains the product's current price. The cart's first item for the product gains a unit, or a one-unit item at the current price is appended. No other row changes. |
| PendingCart.AddToCartCorrected | app/actions/productActions.ts:67-126 | The same outcomes, session failures included, and the same item change as `addToCart`. The total rises by the existing item's recorded unit price, or by the current price for a new item. |
| PendingCart.AddToCartBreaksTotals | app/actions/productActions.ts:101-125 | A concrete database where `addToCart` leaves the pending order's total different from the sum of its items |
| PendingCart.AddToCartCorrectedKeepsTotals | app/actions/productActions.ts:67-126 | The corrected add keeps every order's total equal to the sum of unit price times quantity over its items |
| PendingCart.AddToCartKeepsTotalsAtSnapshotPrice | app/actions/productActions.ts:101-125 | When the stored unit price equals the current price, the add as written keeps every total consistent |
| PendingCart.RemoveFromCart | app/actions/productActions.ts:128-159 | Succeeds exactly when signed in; a session failure is passed on as the redirect or "Unauthorized". With no pending order, or no line for the product, nothing changes. Otherwise the first such item loses a unit, or is deleted when it holds one. The pending order's total drops by that item's unit price, and no other order or product changes. |
| PendingCart.RemoveFromCartKeepsTotals | app/actions/productActions.ts:128-159 | Removing keeps every order's total equal to its item sum, and keeps quantities positive |
| PendingCart.AddRemoveRoundTrip | app/actions/productActions.ts:67-159 | With a pending order present, the corrected add followed by remove restores the database exactly |
| PendingCart.AddRemoveRoundTripAtSnapshotPrice | app/actions/productActions.ts:67-159 | The add as written followed by remove restores the database when the stored unit price equals the current price |
| PendingCart.AddRemoveLeavesEmptyOrder | app/actions/productActions.ts:79-159 | Without a pending order, add then remove leaves the database plus one empty PENDING order for the user |
| Payment.SignedMessage | app/actions/paymentActions.ts:26 | The signed text is the gateway order id, a "&#124;", then the payment id |
| Payment.VerifyRazorpayPayment | app/actions/paymentActions.ts:12-40 | Succeeds exactly when signed in, the signature matches and the order exists, with each failure named. Failures change nothing. Success marks that order PAID with the payment id, returns it and leaves every other row alone. |
| Payment.VerifyIdempotent | app/actions/paymentActions.ts:33-39 | Verifying the same payload again succeeds and changes nothing more |
| Payment.SignatureIgnoresShopOrder | app/actions/paymentActions.ts:21-37 | A payload that verifies for one order verifies, for any signed-in user, against any other existing order |
| Webhook.StatusCode | app/api/webhooks/razorpay/route.ts:15-69 | 200 exactly for a handled event, 400 for a bad signature or bad JSON, 500 for a handling error |
| Webhook.IndexOfPayment | app/api/webhooks/razorpay/route.ts:53-55 | The first order the `paymentId` filter selects, or none: any order for an absent id, an order without a payment id for `null`, otherwise an equal payment id |
| Webhook.Target | app/api/webhooks/razorpay/route.ts:41-62 | With a truthy receipt, an order is selected exactly when one has that id, and it is that order. Without one, the selected order is the first that the gateway order id's filter selects; none is selected when no order matches. |
| Webhook.Capture | app/api/webhooks/razorpay/route.ts:27-63 | With no selected order nothing changes. Otherwise the selected order, and no other, becomes PAID with the payment id. A receipt naming an order marks that order. |
| Webhook.Post | app/api/webhooks/razorpay/route.ts:9-70 | Each outcome holds exactly under its condition: a signature mismatch against the header (missing reads as ""), unparsable JSON, or a null body or missing payment entity for a captured event. Any other event is acknowledged without a change. A captured payment that is handled is applied to the database. |
| Webhook.CaptureIdempotent | app/api/webhooks/razorpay/route.ts:41-49 | Applying a captured payment with a receipt twice equals applying it once |
| Webhook.PostIdempotent | app/api/webhooks/razorpay/route.ts:9-70 | Redelivering the same request, when its payment carries a receipt, returns the same outcome and state |
| Webhook.NullOrderIdMarksFirstUnpaid | app/api/webhooks/razorpay/route.ts:50-61 | Without a receipt and with a `null` order id, the first order lacking a payment id is marked PAID |
| Webhook.UndefinedOrderIdMarksFirstOrder | app/api/webhooks/razorpay/route.ts:50-61 | Without a receipt and with no order id, the first order of the table is marked PAID |
| Webhook.FallbackRedeliveryMarksAnother | app/api/webhooks/razorpay/route.ts:50-61 | A concrete redelivery without a receipt that marks a second order |
| Webhook.VerifyThenCaptureAgree | app/api/webhooks/razorpay/route.ts:41-49 | After a successful verification, the webhook for the same payment and receipt changes nothing. Verification after the webhook changes nothing either: both paths reach the same state. |
| CartLines.Known | app/actions/cartActions.ts:15-29 | The surviving entries come from the cart and have a product. Every entry whose product exists survives. |
| CartLines.GetCartLines | app/actions/cartActions.ts:3-32 | Never more lines than entries. All products present means no entry is dropped; none present means no lines. |
| CartLines.CartLinesAreKnownEntries | app/actions/cartActions.ts:15-29 | Line k is the k-th surviving entry, paired with the id, title, price and images of its product |
| CartLines.KnownAppend | app/actions/cartActions.ts:15-29 | Filtering the cart in two pieces gives the two filtered pieces in the same order, so surviving entries keep the cart's order |
| CartLines.GetCartLinesAppend | app/actions/cartActions.ts:15-29 | The lines of two concatenated carts are the first cart's lines followed by the second's |
| CartLines.KnownKeepsAll | app/actions/cartActions.ts:15-29 | With every product present the surviving entries are the cart itself |
| CartLines.FindProduct | components/user/CheckoutClient.tsx:113 | Finds a product exactly when one in the list has the id, and returns a row of the list with that id |
| CartLines.Summarize | components/user/CheckoutClient.tsx:108-120 | The memo loop yields the lines of the found products and the running total. An empty cart yields no lines and a total that keeps "Buy all" disabled. |
| CartLines.MemoAgreesWithCartLines | components/user/CheckoutClient.tsx:108-120 | With the page's product list equal to the catalogue, the memo and `getCartLines` give the same products and quantities in the same order |
| CartLines.MemoTotalNonNegative | components/user/CheckoutClient.tsx:108-120 | With non-negative prices and positive quantities the total is non-negative, and it is 0 exactly when every line's price is 0 |
| CheckoutFlow.ToCheckoutItems | components/user/CheckoutClient.tsx:149 | The action receives the cart's entries unchanged, in order |
| CheckoutFlow.BuyAll | components/user/CheckoutClient.tsx:143-195 | An empty cart does nothing. A non-empty cart either opens the payment window or reports the failure. An accepted cart whose stock fits opens the window whenever the gateway creates the remote order. An opened window belongs to a newly placed order, with the amount set to the total of the priced cart. A failure leaves the database unchanged, except after a gateway error. |
| CheckoutFlow.OnPayment | components/user/CheckoutClient.tsx:160-178 | Verified payments clear the cart and go to the order page. Otherwise the order's stock is restored, the cart is kept and the order stays as it was. |
| CheckoutFlow.FailedPaymentReleasesStock | components/user/CheckoutClient.tsx:171-174 | After a placed checkout, a failed verification returns all stock to its earlier level. The new order stays PENDING and the cart is kept. |
| CheckoutFlow.SignedPaymentCompletesOrder | components/user/CheckoutClient.tsx:160-170 | After a placed checkout, a signed-in user's correctly signed payment marks the new order PAID with the payment id. The reservation is kept and the cart is emptied. |
| CheckoutFlow.ChargedTotalMatchesShown | components/user/CheckoutClient.tsx:108-120 | For a cart of whole positive quantities whose products exist, the lines the server prices add up to exactly the total the page shows |
| CheckoutFlow.ChargedAmountIsShownTotal | components/user/CheckoutClient.tsx:143-159 | When the page's product list is the current catalogue and every cart quantity is a whole number of at least 1, the amount "Buy all" asks the gateway for is the total displayed on the page |
| ProductForm.Issues | components/admin/ProductForm.tsx:24-41 | An issue is reported exactly when its check fails: an empty title or slug, a price that is not a number or is negative, a stock that is not a number or is below 0 or below 1, or no images |
| ProductForm.Parse | components/admin/ProductForm.tsx:24-41 | Parsing succeeds exactly when every field is valid. The values pass through, with a missing description read as "" and the id optional. Otherwise every issue is returned. |
| ProductForm.NoIssuesIffValid | components/admin/ProductForm.tsx:24-41 | No issues is exactly the schema's requirements holding |
| ProductForm.ZeroStockRejected | components/admin/ProductForm.tsx:32-37 | A stock of 0 is rejected by the minimum of 1, not by the non-negative check |
| ProductForm.FractionalStockAccepted | components/admin/ProductForm.tsx:32-37 | The schema has no integer check, so a stock of 1.5 passes |

## Left out

- Reading and writing the cart in localStorage (both hooks), the React state and the context plumbing are browser I/O. Each cart operation is a function from the old list to the new one.
- HMAC-SHA256 is the `mac` argument, `JSON.parse` is `parse` and the Razorpay REST call is `gateway`. Their cryptographic and wire-format details are not modelled.
- Razorpay's own order object is reduced to its id. The gateway's answer to a request is an argument.
- Database ids come from a `newId` argument, required to be unused wherever a new order must not collide with existing rows. Prisma failures other than a missing row, such as connection errors or unique-key clashes, are not modelled.
- Concurrency is not modelled. Two server actions never interleave, and each `$transaction` is one atomic step.
- UI effects are not modelled: the Razorpay script loader, the payment window, its dismissal, `alert`, `setProcessing` and the rupee formatting.
- The three-second `setTimeout` before the cart is cleared is collapsed: the cart is cleared at once.
- `addProduct`, `updateProduct`, `requireNoAuth` and `signout` are not modelled. They are single database or auth-library calls with no logic of their own.
- Checkout.NormalizeQty: a NaN or infinite quantity is not modelled. Quantities are real numbers, and `Math.floor(NaN)` is left out.
- ProductForm.Parse: the coercion from the form's strings to numbers is not modelled. The record holds the coerced number, either NaN or finite, and an infinite number is left out.
- Webhook.PostIdempotent: proved only for payments that carry a receipt. Without one, redelivery is not idempotent (see `Webhook.FallbackRedeliveryMarksAnother`).
- Webhook.Post: a payment entity is assumed to carry its `id` as a string. A missing or `null` payment id, which Prisma would skip or write as `null`, is not modelled.
- Order items are identified by their position in the item sequence, not by a database id.

## Findings

| source | as written | input that shows it | evidently intended | confidence | as-written member | corrected member |
|---|---|---|---|---|---|---|
| app/actions/productActions.ts:101-125 | When the product already has a line in the pending order, `addToCart` increments that line, whose `unitPrice` was fixed when the line was created. It still raises the order's `totalAmount` by the product's current price. | A pending order with total 100 and one line of quantity 1 at unit price 100. The product's price is now 150. After `addToCart` the total is 250, but the lines sum to 200. | The total should rise by the price the line is charged at, so that it stays the sum of unit price times quantity. `removeFromCart` already subtracts the stored `unitPrice`. | not executed | PendingCart.AddToCart, PendingCart.AddToCartBreaksTotals | PendingCart.AddToCartCorrected, PendingCart.AddToCartCorrectedKeepsTotals |

=== FILE: auth.dfy ===
/**
  The session and role gates of lib/auth-utils.ts as decisions over an
  optional session. A `redirect(...)` is modelled as the failure
  `Redirect(path)`; the session lookup itself (cookies, better-auth) is
  the `session` argument.
*/
module Auth {
  import opened Common
  import opened Store

  const SignInPath := "/sign-in"
  const UnauthorizedPath := "/unauthorized"
  const AdminRole := "ADMIN"

  /** `session.user.role` is the list `findUserRole` produced, or null. */
  datatype User = User(id: UserId, role: Option<seq<string>>)
  datatype Session = Session(user: User)

  /** `requireAuth`: no session redirects to the sign-in page. */
  function RequireAuth(session: Option<Session>): (r: Result<Session, Failure>)
    ensures session.None? <==> r.Err?
    ensures r.Err? ==> r.error == Redirect(SignInPath)
    ensures r.Ok? ==> r.value == session.value
  {
    match session
    case None => Err(Redirect(SignInPath))
    case Some(s) => Ok(s)
  }

  /** `requireAdminAuth`: a session whose roles (null read as empty) include "ADMIN". */
  function RequireAdminAuth(session: Option<Session>): (r: Result<Session, Failure>)
    ensures session.None? ==> r == Err(Redirect(SignInPath))
    ensures r.Ok? <==> session.Some? && AdminRole in session.value.user.role.GetOr([])
    ensures r.Ok? ==> r.value == session.value
    ensures session.Some? && r.Err? ==> r.error == Redirect(UnauthorizedPath)
  {
    match session
    case None => Err(Redirect(SignInPath))
    case Some(s) =>
      var roles := s.user.role.GetOr([]);
      if AdminRole in roles then Ok(s) else Err(Redirect(UnauthorizedPath))
  }

  /**
    `requireAuth()` followed by the callers' `if (!session?.user?.id) throw
    new Error("Unauthorized")`: an empty id is falsy in JavaScript.
  */
  function SignedInUser(session: Option<Session>): (r: Result<UserId, Failure>)
    ensures r.Ok? <==> session.Some? && session.value.user.id != ""
    ensures r.Ok? ==> r.value == session.value.user.id
    ensures session.None? ==> r == Err(Redirect(SignInPath))
    ensures session.Some? && r.Err? ==> r.error == Unauthorized
  {
    match RequireAuth(session)
    case Err(e) => Err(e)
    case Ok(s) => if s.user.id == "" then Err(Unauthorized) else Ok(s.user.id)
  }

  /** `findUserRole`: `[role]` for a known user, null otherwise. `users` maps ids to roles. */
  function FindUserRole(users: map<UserId, string>, id: UserId): (r: Option<seq<string>>)
    ensures r.Some? <==> id in users
    ensures r.Some? ==> r.value == [users[id]]
  {
    if id in users then Some([users[id]]) else None
  }

  /** The session lib/auth.ts builds: the user's role list comes from `findUserRole`. */
  function SessionFor(users: map<UserId, string>, id: UserId): Session {
    Session(User(id, FindUserRole(users, id)))
  }

  /** With sessions built that way, the admin gate admits exactly the users whose role is "ADMIN". */
  lemma {:induction false} AdminGateMatchesRole(users: map<UserId, string>, id: UserId)
    ensures RequireAdminAuth(Some(SessionFor(users, id))).Ok? <==> id in users && users[id] == AdminRole
  {
    if id in users {
      assert AdminRole in [users[id]] <==> users[id] == AdminRole;
    }
  }
}

=== FILE: cart.dfy ===
/**
  The browser-side cart kept by the `CartProvider` context
  (hooks/cart-context.tsx): an ordered list of (product id, quantity)
  entries with `add`, `remove`, `clear`, `getQty` and `totalItems`.
  Loading and saving the list in localStorage is left out; each
  operation is a pure function from the previous list to the next.
*/
module Cart {
  import opened Common

  type ProductId = string

  datatype CartItem = CartItem(productId: ProductId, quantity: int)

  /** No product occurs in two entries. */
  predicate DistinctIds(cart: seq<CartItem>) {
    forall i, j :: 0 <= i < j < |cart| ==> cart[i].productId != cart[j].productId
  }

  /** Every entry holds at least one unit. */
  predicate AllPositive(cart: seq<CartItem>) {
    forall i :: 0 <= i < |cart| ==> cart[i].quantity >= 1
  }

  /** The shape every cart built by `add` and `remove` from `[]` has. */
  predicate WellFormed(cart: seq<CartItem>) {
    DistinctIds(cart) && AllPositive(cart)
  }

  predicate Contains(cart: seq<CartItem>, p: ProductId) {
    exists i :: 0 <= i < |cart| && cart[i].productId == p
  }

  /** `cart.find(i => i.productId === p)`, as the index of the first match. */
  function Find(cart: seq<CartItem>, p: ProductId): (r: Option<nat>)
    ensures r.Some? ==> r.value < |cart| && cart[r.value].productId == p
    ensures r.Some? ==> forall j :: 0 <= j < r.value ==> cart[j].productId != p
    ensures r.None? <==> !Contains(cart, p)
  {
    if |cart| == 0 then None
    else if cart[0].productId == p then Some(0)
    else
      match Find(cart[1..], p)
      case Some(k) => Some(k + 1)
      case None =>
        assert forall j :: 1 <= j < |cart| ==> cart[j] == cart[1..][j - 1];
        None
  }

  /** The `map` step of `add`: every entry for `p` gains one unit. */
  function Increment(cart: seq<CartItem>, p: ProductId): seq<CartItem> {
    seq(|cart|, i requires 0 <= i < |cart| =>
      if cart[i].productId == p then cart[i].(quantity := cart[i].quantity + 1) else cart[i])
  }

  /** The `map` step of `remove`: every entry for `p` loses one unit. */
  function Decrement(cart: seq<CartItem>, p: ProductId): seq<CartItem> {
    seq(|cart|, i requires 0 <= i < |cart| =>
      if cart[i].productId == p then cart[i].(quantity := cart[i].quantity - 1) else cart[i])
  }

  /** The `filter(i => i.quantity > 0)` step of `remove`, over the whole list. */
  function KeepPositive(s: seq<CartItem>): (r: seq<CartItem>)
    ensures |r| <= |s|
    ensures forall i :: 0 <= i < |r| ==> r[i].quantity > 0 && r[i] in s
  {
    if |s| == 0 then []
    else KeepPositive(s[..|s| - 1]) + (if s[|s| - 1].quantity > 0 then [s[|s| - 1]] else [])
  }

  /** `add(productId)`: one more unit of `p`, appended as a new entry when absent. */
  function Add(cart: seq<CartItem>, p: ProductId): (r: seq<CartItem>)
    ensures Contains(cart, p) ==>
      && |r| == |cart|
      && forall i :: 0 <= i < |cart| ==>
           && r[i].productId == cart[i].productId
           && r[i].quantity == cart[i].quantity + (if cart[i].productId == p then 1 else 0)
    ensures !Contains(cart, p) ==>
      |r| == |cart| + 1 && r[..|cart|] == cart && r[|cart|] == CartItem(p, 1)
  {
    if Find(cart, p).Some? then Increment(cart, p) else cart + [CartItem(p, 1)]
  }

  /** `remove(productId)`: one unit of `p` less; entries that reach zero are dropped. */
  function Remove(cart: seq<CartItem>, p: ProductId): (r: seq<CartItem>)
    ensures |r| <= |cart|
    ensures forall i :: 0 <= i < |r| ==> r[i].quantity > 0
  {
    KeepPositive(Decrement(cart, p))
  }

  /** `clear()`. */
  function Clear(): (r: seq<CartItem>)
    ensures |r| == 0
  {
    []
  }

  /** `getQty(productId)`: the first matching entry's quantity, or 0. */
  function GetQty(cart: seq<CartItem>, p: ProductId): int {
    match Find(cart, p)
    case Some(i) => cart[i].quantity
    case None => 0
  }

  /** `totalItems`: `cart.reduce((sum, i) => sum + i.quantity, 0)`. */
  function TotalItems(cart: seq<CartItem>): int {
    if |cart| == 0 then 0 else TotalItems(cart[..|cart| - 1]) + cart[|cart| - 1].quantity
  }

  // ---------------------------------------------------------------------------
  // Helper facts about the filter and the sum

  lemma {:induction false} KeepPositiveOfPositive(s: seq<CartItem>)
    requires AllPositive(s)
    ensures KeepPositive(s) == s
  {
    if |s| > 0 {
      KeepPositiveOfPositive(s[..|s| - 1]);
      assert s[..|s| - 1] + [s[|s| - 1]] == s;
    }
  }

  lemma {:induction false} KeepPositiveDistinct(s: seq<CartItem>)
    requires DistinctIds(s)
    ensures DistinctIds(KeepPositive(s))
  {
    if |s| > 0 {
      var init := s[..|s| - 1];
      KeepPositiveDistinct(init);
      var r := KeepPositive(init);
      forall i | 0 <= i < |r|
        ensures r[i].productId != s[|s| - 1].productId
      {
        assert r[i] in init;
        var k :| 0 <= k < |init| && init[k] == r[i];
      }
    }
  }

  lemma {:induction false} KeepPositiveAppend(a: seq<CartItem>, b: seq<CartItem>)
    ensures KeepPositive(a + b) == KeepPositive(a) + KeepPositive(b)
  {
    if |b| > 0 {
      var b' := b[..|b| - 1];
      assert (a + b)[..|a + b| - 1] == a + b';
      KeepPositiveAppend(a, b');
    } else {
      assert a + b == a;
    }
  }

  /** Dropping the one non-positive entry at index `i` of an otherwise positive list. */
  lemma {:induction false} KeepPositiveDropsOne(s: seq<CartItem>, i: int)
    requires 0 <= i < |s|
    requires s[i].quantity <= 0
    requires forall j :: 0 <= j < |s| && j != i ==> s[j].quantity >= 1
    ensures KeepPositive(s) == s[..i] + s[i + 1..]
  {
    var pre, mid, post := s[..i], [s[i]], s[i + 1..];
    assert s == pre + (mid + post);
    assert AllPositive(pre);
    assert AllPositive(post) by {
      forall j | 0 <= j < |post| ensures post[j].quantity >= 1 {
        assert post[j] == s[i + 1 + j];
      }
    }
    KeepPositiveOfPositive(pre);
    KeepPositiveOfPositive(post);
    KeepPositiveSkip(pre, s[i], post);
  }

  lemma {:induction false} KeepPositiveSkip(pre: seq<CartItem>, x: CartItem, post: seq<CartItem>)
    requires x.quantity <= 0
    ensures KeepPositive(pre + ([x] + post)) == KeepPositive(pre) + KeepPositive(post)
  {
    KeepPositiveAppend(pre, [x] + post);
    KeepPositiveAppend([x], post);
    assert [x][..0] == [];
    assert KeepPositive([x]) == [];
  }

  lemma {:induction false} TotalItemsAppend(a: seq<CartItem>, b: seq<CartItem>)
    ensures TotalItems(a + b) == TotalItems(a) + TotalItems(b)
  {
    if |b| > 0 {
      var b' := b[..|b| - 1];
      assert (a + b)[..|a + b| - 1] == a + b';
      TotalItemsAppend(a, b');
    } else {
      assert a + b == a;
    }
  }

  lemma {:induction false} TotalItemsUpdate(s: seq<CartItem>, i: int, q: int)
    requires 0 <= i < |s|
    ensures TotalItems(s[i := s[i].(quantity := q)]) == TotalItems(s) - s[i].quantity + q
  {
    var t := s[i := s[i].(quantity := q)];
    assert s == s[..i] + [s[i]] + s[i + 1..];
    assert t == s[..i] + [t[i]] + s[i + 1..];
    TotalItemsAppend(s[..i] + [s[i]], s[i + 1..]);
    TotalItemsAppend(s[..i], [s[i]]);
    TotalItemsAppend(s[..i] + [t[i]], s[i + 1..]);
    TotalItemsAppend(s[..i], [t[i]]);
    assert TotalItems([s[i]]) == TotalItems([]) + s[i].quantity;
    assert TotalItems([t[i]]) == TotalItems([]) + q;
  }

  lemma {:induction false} TotalItemsDelete(s: seq<CartItem>, i: int)
    requires 0 <= i < |s|
    ensures TotalItems(s[..i] + s[i + 1..]) == TotalItems(s) - s[i].quantity
  {
    assert s == s[..i] + [s[i]] + s[i + 1..];
    TotalItemsAppend(s[..i] + [s[i]], s[i + 1..]);
    TotalItemsAppend(s[..i], [s[i]]);
    TotalItemsAppend(s[..i], s[i + 1..]);
    assert TotalItems([s[i]]) == TotalItems([]) + s[i].quantity;
  }

  // ---------------------------------------------------------------------------
  // Properties of the cart operations

  /** `add` keeps ids distinct and quantities positive. */
  lemma {:induction false} AddKeepsWellFormed(cart: seq<CartItem>, p: ProductId)
    requires WellFormed(cart)
    ensures WellFormed(Add(cart, p))
  {
  }

  /** `remove` keeps ids distinct and quantities positive, on every distinct-id cart. */
  lemma {:induction false} RemoveKeepsWellFormed(cart: seq<CartItem>, p: ProductId)
    requires DistinctIds(cart)
    ensures WellFormed(Remove(cart, p))
  {
    KeepPositiveDistinct(Decrement(cart, p));
  }

  /** Removing a product the cart does not hold changes nothing. */
  lemma {:induction false} RemoveAbsent(cart: seq<CartItem>, p: ProductId)
    requires WellFormed(cart)
    requires !Contains(cart, p)
    ensures Remove(cart, p) == cart
  {
    assert Decrement(cart, p) == cart;
    KeepPositiveOfPositive(cart);
  }

  /** Removing a product held more than once decrements it in place. */
  lemma {:induction false} RemoveDecrements(cart: seq<CartItem>, p: ProductId, i: int)
    requires WellFormed(cart)
    requires 0 <= i < |cart| && cart[i].productId == p && cart[i].quantity > 1
    ensures Remove(cart, p) == cart[i := cart[i].(quantity := cart[i].quantity - 1)]
  {
    var d := Decrement(cart, p);
    assert d == cart[i := cart[i].(quantity := cart[i].quantity - 1)];
    KeepPositiveOfPositive(d);
  }

  /** Removing the last unit of a product drops its entry; the others keep their order. */
  lemma {:induction false} RemoveDropsEntry(cart: seq<CartItem>, p: ProductId, i: int)
    requires WellFormed(cart)
    requires 0 <= i < |cart| && cart[i].productId == p && cart[i].quantity == 1
    ensures Remove(cart, p) == cart[..i] + cart[i + 1..]
  {
    var d := Decrement(cart, p);
    KeepPositiveDropsOne(d, i);
    assert d[..i] == cart[..i];
    assert d[i + 1..] == cart[i + 1..];
  }

  /** `remove(add(c, p), p)` gives back `c`. */
  lemma {:induction false} AddRemoveRoundTrip(cart: seq<CartItem>, p: ProductId)
    requires WellFormed(cart)
    ensures Remove(Add(cart, p), p) == cart
  {
    if Contains(cart, p) {
      assert Decrement(Increment(cart, p), p) == cart;
      KeepPositiveOfPositive(cart);
    } else {
      var added := cart + [CartItem(p, 1)];
      assert Decrement(added, p) == cart + [CartItem(p, 0)];
      KeepPositiveAppend(cart, [CartItem(p, 0)]);
      assert KeepPositive([CartItem(p, 0)]) == KeepPositive([]) + [];
      KeepPositiveOfPositive(cart);
    }
  }

  /** `getQty` is the stored quantity of `p`, or 0 when `p` has no entry. */
  lemma {:induction false} GetQtyStored(cart: seq<CartItem>, p: ProductId)
    requires DistinctIds(cart)
    ensures forall i :: 0 <= i < |cart| && cart[i].productId == p ==> GetQty(cart, p) == cart[i].quantity
    ensures !Contains(cart, p) ==> GetQty(cart, p) == 0
  {
  }

  /** `add` raises `getQty` of that product by exactly one. */
  lemma {:induction false} GetQtyAfterAdd(cart: seq<CartItem>, p: ProductId)
    ensures GetQty(Add(cart, p), p) == GetQty(cart, p) + 1
  {
    if !Contains(cart, p) {
      var r := Add(cart, p);
      assert r[|cart|].productId == p;
      assert Contains(r, p);
    }
  }

  /** `add` raises `totalItems` by one. */
  lemma {:induction false} TotalItemsAfterAdd(cart: seq<CartItem>, p: ProductId)
    requires DistinctIds(cart)
    ensures TotalItems(Add(cart, p)) == TotalItems(cart) + 1
  {
    match Find(cart, p)
    case Some(i) =>
      assert Add(cart, p) == cart[i := cart[i].(quantity := cart[i].quantity + 1)];
      TotalItemsUpdate(cart, i, cart[i].quantity + 1);
    case None =>
      TotalItemsAppend(cart, [CartItem(p, 1)]);
      assert TotalItems([CartItem(p, 1)]) == TotalItems([]) + 1;
  }

  /** `remove` lowers `totalItems` by one exactly when the product is in the cart. */
  lemma {:induction false} TotalItemsAfterRemove(cart: seq<CartItem>, p: ProductId)
    requires WellFormed(cart)
    ensures TotalItems(Remove(cart, p)) == TotalItems(cart) - (if Contains(cart, p) then 1 else 0)
  {
    match Find(cart, p)
    case Some(i) =>
      if cart[i].quantity > 1 {
        RemoveDecrements(cart, p, i);
        TotalItemsUpdate(cart, i, cart[i].quantity - 1);
      } else {
        RemoveDropsEntry(cart, p, i);
        TotalItemsDelete(cart, i);
      }
    case None =>
      RemoveAbsent(cart, p);
  }

  /** After `clear`, no product has a quantity and the item count is zero. */
  lemma {:induction false} ClearEmpties(p: ProductId)
    ensures GetQty(Clear(), p) == 0 && TotalItems(Clear()) == 0
  {
  }
}

=== FILE: cart_hook.dfy ===
/**
  The standalone `useCart` hook (hooks/useCart.ts). It repeats the cart
  operations of the `CartProvider` context; here each one is written the
  way the JavaScript array methods run it — a left-to-right scan with an
  accumulator — and proved to give the same result as the functional
  definition in module `Cart`. Its `clear` also deletes the localStorage
  key, which is browser I/O and is left out.
*/
module CartHook {
  import Cart

  type CartItem = Cart.CartItem

  /** `prev.find(...)` reduced to whether a match exists. */
  method Has(cart: seq<CartItem>, p: Cart.ProductId) returns (found: bool)
    ensures found <==> Cart.Contains(cart, p)
  {
    found := false;
    var i := 0;
    while i < |cart|
      invariant 0 <= i <= |cart|
      invariant found <==> exists j :: 0 <= j < i && cart[j].productId == p
    {
      if cart[i].productId == p {
        found := true;
      }
      i := i + 1;
    }
  }

  /** `add(productId)` of the hook. */
  method Add(cart: seq<CartItem>, p: Cart.ProductId) returns (r: seq<CartItem>)
    ensures r == Cart.Add(cart, p)
  {
    var found := Has(cart, p);
    if !found {
      return cart + [Cart.CartItem(p, 1)];
    }
    r := [];
    var k := 0;
    while k < |cart|
      invariant 0 <= k <= |cart|
      invariant r == Cart.Increment(cart, p)[..k]
    {
      var item := cart[k];
      r := r + [if item.productId == p then item.(quantity := item.quantity + 1) else item];
      k := k + 1;
    }
  }

  /** `remove(productId)` of the hook: a `map` pass and then a `filter` pass. */
  method Remove(cart: seq<CartItem>, p: Cart.ProductId) returns (r: seq<CartItem>)
    ensures r == Cart.Remove(cart, p)
    ensures forall i :: 0 <= i < |r| ==> r[i].quantity > 0
  {
    var mapped: seq<CartItem> := [];
    var k := 0;
    while k < |cart|
      invariant 0 <= k <= |cart|
      invariant mapped == Cart.Decrement(cart, p)[..k]
    {
      var item := cart[k];
      mapped := mapped + [if item.productId == p then item.(quantity := item.quantity - 1) else item];
      k := k + 1;
    }
    assert mapped == Cart.Decrement(cart, p);
    r := [];
    k := 0;
    while k < |mapped|
      invariant 0 <= k <= |mapped|
      invariant r == Cart.KeepPositive(mapped[..k])
    {
      assert mapped[..k + 1][..k] == mapped[..k];
      if mapped[k].quantity > 0 {
        r := r + [mapped[k]];
      }
      k := k + 1;
    }
    assert mapped[..k] == mapped;
  }

  /** `clear()` of the hook. */
  method Clear() returns (r: seq<CartItem>)
    ensures r == Cart.Clear()
  {
    r := [];
  }

  /** `getQty(productId)` of the hook: the first match's quantity, or 0. */
  method GetQty(cart: seq<CartItem>, p: Cart.ProductId) returns (q: int)
    ensures q == Cart.GetQty(cart, p)
  {
    var i := 0;
    while i < |cart|
      invariant 0 <= i <= |cart|
      invariant forall j :: 0 <= j < i ==> cart[j].productId != p
    {
      if cart[i].productId == p {
        return cart[i].quantity;
      }
      i := i + 1;
    }
    return 0;
  }

  /** `totalItems` of the hook: the `reduce` over the list. */
  method TotalItems(cart: seq<CartItem>) returns (sum: int)
    ensures sum == Cart.TotalItems(cart)
  {
    sum := 0;
    var i := 0;
    while i < |cart|
      invariant 0 <= i <= |cart|
      invariant sum == Cart.TotalItems(cart[..i])
    {
      assert cart[..i + 1][..i] == cart[..i];
      sum := sum + cart[i].quantity;
      i := i + 1;
    }
    assert cart[..i] == cart;
  }
}

=== FILE: cart_lines.dfy ===
/**
  How a cart becomes display lines. `getCartLines`
  (app/actions/cartActions.ts) looks every cart entry up among the
  products with those ids and drops entries whose product is gone. The
  checkout page's memo (components/user/CheckoutClient.tsx) does the same
  against the product list the page was given, with a running total of
  `price * quantity`. The two agree when that list is the catalogue.
*/
module CartLines {
  import opened Common
  import opened Store
  import Cart

  /** The product fields a cart line carries. */
  datatype LineProduct = LineProduct(id: ProductId, title: string, price: int, images: seq<string>)

  datatype CartLine = CartLine(product: LineProduct, quantity: int)

  /** A line of the checkout memo: the whole product row and the quantity. */
  datatype MemoLine = MemoLine(product: Product, quantity: int)

  function Summary(p: Product): LineProduct {
    LineProduct(p.id, p.title, p.price, p.images)
  }

  /** Cart entries whose product is in `products`, in cart order. */
  function Known(items: seq<Cart.CartItem>, products: map<ProductId, Product>): (r: seq<Cart.CartItem>)
    ensures |r| <= |items|
    ensures forall k :: 0 <= k < |r| ==> r[k] in items && r[k].productId in products
    ensures forall k :: 0 <= k < |items| && items[k].productId in products ==> items[k] in r
  {
    if |items| == 0 then []
    else
      var last := items[|items| - 1];
      Known(items[..|items| - 1], products) + (if last.productId in products then [last] else [])
  }

  /** `getCartLines(items)`: an empty list short-circuits; otherwise map, then drop the misses. */
  function GetCartLines(items: seq<Cart.CartItem>, products: map<ProductId, Product>): (r: seq<CartLine>)
    ensures |r| <= |items|
    ensures (forall k :: 0 <= k < |items| ==> items[k].productId in products) ==> |r| == |items|
    ensures (forall k :: 0 <= k < |items| ==> items[k].productId !in products) ==> r == []
  {
    if |items| == 0 then []
    else
      var last := items[|items| - 1];
      GetCartLines(items[..|items| - 1], products)
        + (if last.productId in products then [CartLine(Summary(products[last.productId]), last.quantity)] else [])
  }

  /** The lines are exactly the known entries, each paired with its product's summary. */
  lemma {:induction false} CartLinesAreKnownEntries(items: seq<Cart.CartItem>, products: map<ProductId, Product>)
    ensures var lines := GetCartLines(items, products);
      var known := Known(items, products);
      && |lines| == |known|
      && forall k :: 0 <= k < |lines| ==>
           lines[k] == CartLine(Summary(products[known[k].productId]), known[k].quantity)
  {
    if |items| > 0 {
      CartLinesAreKnownEntries(items[..|items| - 1], products);
    }
  }

  /**
    Dropping the unknown entries commutes with concatenation, so the
    surviving entries keep the order they had in the cart.
  */
  lemma {:induction false} KnownAppend(a: seq<Cart.CartItem>, b: seq<Cart.CartItem>, products: map<ProductId, Product>)
    ensures Known(a + b, products) == Known(a, products) + Known(b, products)
  {
    if |b| == 0 {
      assert a + b == a;
    } else {
      var front, last := b[..|b| - 1], b[|b| - 1];
      assert (a + b)[..|a + b| - 1] == a + front;
      assert (a + b)[|a + b| - 1] == last;
      KnownAppend(a, front, products);
      var tail := if last.productId in products then [last] else [];
      assert Known(a + b, products) == (Known(a, products) + Known(front, products)) + tail;
      assert Known(b, products) == Known(front, products) + tail;
    }
  }

  /** The line one cart entry contributes: its product's summary, or nothing when the product is gone. */
  function LineOf(item: Cart.CartItem, products: map<ProductId, Product>): seq<CartLine> {
    if item.productId in products then [CartLine(Summary(products[item.productId]), item.quantity)] else []
  }

  /** Unfolds `GetCartLines` once on a cart ending in `x`. */
  lemma {:induction false} GetCartLinesSnoc(items: seq<Cart.CartItem>, x: Cart.CartItem, products: map<ProductId, Product>)
    ensures GetCartLines(items + [x], products) == GetCartLines(items, products) + LineOf(x, products)
  {
    assert (items + [x])[..|items|] == items;
  }

  lemma {:induction false} SplitLast(a: seq<Cart.CartItem>, b: seq<Cart.CartItem>)
    requires |b| > 0
    ensures b == b[..|b| - 1] + [b[|b| - 1]]
    ensures a + b == (a + b[..|b| - 1]) + [b[|b| - 1]]
  {
  }

  /** Lines are built entry by entry: the lines of `a + b` are those of `a`, then those of `b`. */
  lemma {:induction false} GetCartLinesAppend(a: seq<Cart.CartItem>, b: seq<Cart.CartItem>, products: map<ProductId, Product>)
    ensures GetCartLines(a + b, products) == GetCartLines(a, products) + GetCartLines(b, products)
  {
    if |b| == 0 {
      assert a + b == a;
    } else {
      var front, last := b[..|b| - 1], b[|b| - 1];
      SplitLast(a, b);
      GetCartLinesAppend(a, front, products);
      GetCartLinesSnoc(a + front, last, products);
      GetCartLinesSnoc(front, last, products);
    }
  }

  /** With every product present, no entry is dropped. */
  lemma {:induction false} KnownKeepsAll(items: seq<Cart.CartItem>, products: map<ProductId, Product>)
    requires forall k :: 0 <= k < |items| ==> items[k].productId in products
    ensures Known(items, products) == items
  {
    if |items| > 0 {
      KnownKeepsAll(items[..|items| - 1], products);
      assert items == items[..|items| - 1] + [items[|items| - 1]];
    }
  }

  // ---------------------------------------------------------------------------
  // The checkout page's memo

  /** `products.find((p) => p.id === id)`. */
  function FindProduct(catalogue: seq<Product>, id: ProductId): (r: Option<Product>)
    ensures r.Some? <==> exists k :: 0 <= k < |catalogue| && catalogue[k].id == id
    ensures r.Some? ==> exists k :: 0 <= k < |catalogue| && catalogue[k] == r.value && r.value.id == id
  {
    if |catalogue| == 0 then None
    else if catalogue[0].id == id then Some(catalogue[0])
    else
      assert forall j :: 1 <= j < |catalogue| ==> catalogue[j] == catalogue[1..][j - 1];
      FindProduct(catalogue[1..], id)
  }

  /** The lines the memo collects, entry by entry. */
  function MemoLines(cart: seq<Cart.CartItem>, catalogue: seq<Product>): seq<MemoLine> {
    if |cart| == 0 then []
    else
      var last := cart[|cart| - 1];
      MemoLines(cart[..|cart| - 1], catalogue)
        + (match FindProduct(catalogue, last.productId)
           case Some(p) => [MemoLine(p, last.quantity)]
           case None => [])
  }

  /** Sum of `price * quantity` over the lines. */
  function MemoTotal(lines: seq<MemoLine>): int {
    if |lines| == 0 then 0
    else MemoTotal(lines[..|lines| - 1]) + lines[|lines| - 1].product.price * lines[|lines| - 1].quantity
  }

  /** The `useMemo` loop: `for (const item of cart)` with `continue` on a miss. */
  method Summarize(cart: seq<Cart.CartItem>, catalogue: seq<Product>) returns (lines: seq<MemoLine>, total: int)
    ensures lines == MemoLines(cart, catalogue)
    ensures total == MemoTotal(lines)
    ensures |cart| == 0 ==> lines == [] && forall processing: bool :: !BuyEnabled(total, processing)
  {
    lines := [];
    total := 0;
    var i := 0;
    while i < |cart|
      invariant 0 <= i <= |cart|
      invariant lines == MemoLines(cart[..i], catalogue)
      invariant total == MemoTotal(lines)
    {
      assert cart[..i + 1][..i] == cart[..i];
      var item := cart[i];
      var found := FindProduct(catalogue, item.productId);
      if found.Some? {
        var line := MemoLine(found.value, item.quantity);
        assert (lines + [line])[..|lines|] == lines;
        lines := lines + [line];
        total := total + found.value.price * item.quantity;
      }
      i := i + 1;
    }
    assert cart[..i] == cart;
  }

  /** `catalogue` lists exactly the rows of `products`. */
  predicate ListsCatalogue(catalogue: seq<Product>, products: map<ProductId, Product>) {
    && (forall k :: 0 <= k < |catalogue| ==> catalogue[k].id in products && products[catalogue[k].id] == catalogue[k])
    && (forall id :: id in products ==> exists k :: 0 <= k < |catalogue| && catalogue[k].id == id)
  }

  lemma {:induction false} FindProductInCatalogue(catalogue: seq<Product>, products: map<ProductId, Product>, id: ProductId)
    requires ListsCatalogue(catalogue, products)
    ensures FindProduct(catalogue, id) == (if id in products then Some(products[id]) else None)
  {
  }

  /** The checkout page and `getCartLines` show the same products with the same quantities. */
  lemma {:induction false} MemoAgreesWithCartLines(
    cart: seq<Cart.CartItem>, catalogue: seq<Product>, products: map<ProductId, Product>)
    requires ListsCatalogue(catalogue, products)
    ensures var memo := MemoLines(cart, catalogue);
      var lines := GetCartLines(cart, products);
      && |memo| == |lines|
      && forall k :: 0 <= k < |memo| ==>
           Summary(memo[k].product) == lines[k].product && memo[k].quantity == lines[k].quantity
  {
    if |cart| > 0 {
      MemoAgreesWithCartLines(cart[..|cart| - 1], catalogue, products);
      FindProductInCatalogue(catalogue, products, cart[|cart| - 1].productId);
    }
  }

  /** `disabled={total === 0 || processing}` on the "Buy all" button. */
  predicate BuyEnabled(total: int, processing: bool) {
    total != 0 && !processing
  }

  /** With non-negative prices and positive quantities the memo total is the sum of non-negative subtotals. */
  lemma {:induction false} MemoTotalNonNegative(lines: seq<MemoLine>)
    requires forall k :: 0 <= k < |lines| ==> lines[k].product.price >= 0 && lines[k].quantity >= 1
    ensures MemoTotal(lines) >= 0
    ensures MemoTotal(lines) == 0 <==> forall k :: 0 <= k < |lines| ==> lines[k].product.price == 0
  {
    if |lines| > 0 {
      var last := lines[|lines| - 1];
      MemoTotalNonNegative(lines[..|lines| - 1]);
      assert last.product.price * last.quantity >= last.product.price;
    }
  }
}

=== FILE: checkout.dfy ===
/**
  Server-side checkout (app/actions/orderActions.ts): `createRazorpayOrder`
  validates the cart, prices every line from the catalogue, reserves stock
  with one compare-and-decrement per line inside a single transaction,
  records a PENDING order with its items, and then asks the payment
  gateway for a remote order. `restoreStockForOrder` gives the reserved
  units back.

  The gateway's REST call is the function `gateway`; the database's id
  generator is the argument `newId`, which must be unused.
*/
module Checkout {
  import opened Common
  import opened Store
  import Auth

  const Currency := "INR"

  /** One entry of the client's cart as the action receives it: quantity is any JS number. */
  datatype CheckoutItem = CheckoutItem(productId: ProductId, quantity: real)

  /** A priced line: `{ productId, quantity, unitPrice }`. */
  datatype Line = Line(productId: ProductId, quantity: int, unitPrice: int)

  /** The body of `POST /v1/orders`. */
  datatype GatewayRequest = GatewayRequest(amount: int, currency: string, receipt: OrderId, paymentCapture: int)

  /** The gateway's answer: a remote order id, or a non-2xx response with its text. */
  datatype GatewayReply = Created(remoteOrderId: string) | Rejected(body: string)

  datatype Config = Config(keyId: string, keySecret: string)

  /** What the action returns: the local order id, the remote order and the public key id. */
  datatype CheckoutResult = CheckoutResult(orderId: OrderId, remoteOrderId: string, request: GatewayRequest, keyId: string)

  /** `Math.max(1, Math.floor(q))`: the whole number of units actually ordered. */
  function NormalizeQty(q: real): (n: int)
    ensures n >= 1
    ensures q >= 1.0 ==> n as real <= q < n as real + 1.0
    ensures q < 1.0 ==> n == 1
  {
    var f := q.Floor;
    if f >= 1 then f else 1
  }

  /**
    The `items.map(...)` that prices the cart: each line takes the product's
    current price; the first id missing from the catalogue aborts with
    "Product not found".
  */
  function BuildLines(items: seq<CheckoutItem>, products: map<ProductId, Product>): (r: Result<seq<Line>, Failure>)
    ensures r.Ok? <==> forall k :: 0 <= k < |items| ==> items[k].productId in products
    ensures r.Ok? ==> |r.value| == |items|
    ensures r.Ok? ==> forall k :: 0 <= k < |items| ==>
      && r.value[k].productId == items[k].productId
      && r.value[k].quantity == NormalizeQty(items[k].quantity)
      && r.value[k].unitPrice == products[items[k].productId].price
    ensures r.Err? ==>
      exists k ::
        && 0 <= k < |items|
        && items[k].productId !in products
        && r.error == ProductNotFound(items[k].productId)
        && forall j :: 0 <= j < k ==> items[j].productId in products
  {
    if |items| == 0 then Ok([])
    else
      var it := items[0];
      if it.productId !in products then Err(ProductNotFound(it.productId))
      else
        match BuildLines(items[1..], products)
        case Err(e) =>
          assert forall j :: 1 <= j < |items| ==> items[j] == items[1..][j - 1];
          Err(e)
        case Ok(rest) =>
          assert forall j :: 1 <= j < |items| ==> items[j] == items[1..][j - 1];
          Ok([Line(it.productId, NormalizeQty(it.quantity), products[it.productId].price)] + rest)
  }

  /** Sum of `unitPrice * quantity` over the lines. */
  function Total(lines: seq<Line>): int {
    if |lines| == 0 then 0 else lines[0].unitPrice * lines[0].quantity + Total(lines[1..])
  }

  /** Units of product `pid` across the lines. */
  function LineQty(lines: seq<Line>, pid: ProductId): int {
    if |lines| == 0 then 0
    else (if lines[0].productId == pid then lines[0].quantity else 0) + LineQty(lines[1..], pid)
  }

  /** Lines as `BuildLines` makes them from `products`. */
  predicate PricedFrom(lines: seq<Line>, products: map<ProductId, Product>) {
    forall k :: 0 <= k < |lines| ==>
      && lines[k].productId in products
      && lines[k].quantity >= 1
      && lines[k].unitPrice == products[lines[k].productId].price
  }

  /**
    The transaction's loop: `updateMany({ where: { id, stock: { gte: qty } },
    data: { stock: { decrement: qty } } })` per line, in order, against the
    running stock; a line that matches no row aborts the whole transaction.
  */
  function Reserve(ps: map<ProductId, Product>, lines: seq<Line>): (r: Result<map<ProductId, Product>, Failure>)
    ensures r.Ok? ==> r.value.Keys == ps.Keys
    ensures r.Ok? ==> forall pid :: pid in ps ==>
      r.value[pid] == ps[pid].(stock := ps[pid].stock - LineQty(lines, pid))
    ensures r.Err? ==> r.error.InsufficientStock?
    ensures r.Err? ==> exists k :: 0 <= k < |lines| && r.error.productId == lines[k].productId
  {
    if |lines| == 0 then Ok(ps)
    else
      var l := lines[0];
      if l.productId in ps && ps[l.productId].stock >= l.quantity then
        var ps' := ps[l.productId := ps[l.productId].(stock := ps[l.productId].stock - l.quantity)];
        var r := Reserve(ps', lines[1..]);
        assert r.Err? ==> exists k :: 1 <= k < |lines| && r.error.productId == lines[k].productId by {
          if r.Err? {
            var k :| 0 <= k < |lines[1..]| && r.error.productId == lines[1..][k].productId;
            assert lines[1..][k] == lines[k + 1];
          }
        }
        r
      else Err(InsufficientStock(l.productId))
  }

  /** The transaction's item creation: one OrderItem per line, in line order. */
  function ToItems(lines: seq<Line>, oid: OrderId): (r: seq<OrderItem>)
    ensures |r| == |lines|
    ensures forall k :: 0 <= k < |lines| ==>
      r[k] == OrderItem(oid, lines[k].productId, lines[k].quantity, lines[k].unitPrice)
  {
    if |lines| == 0 then [] else [OrderItem(oid, lines[0].productId, lines[0].quantity, lines[0].unitPrice)] + ToItems(lines[1..], oid)
  }

  /**
    What a committed checkout transaction did to `db`: one new PENDING INR
    order `newId` for `uid`, its items appended, and each product's stock
    lowered by the units its new items hold.
  */
  predicate Placed(db: Db, db': Db, uid: UserId, newId: OrderId) {
    && OrderAppended(db, db', uid, newId)
    && ItemsAppended(db, db', newId)
    && StockReserved(db, db')
  }

  predicate OrderAppended(db: Db, db': Db, uid: UserId, newId: OrderId) {
    && |db'.orders| == |db.orders| + 1
    && db'.orders[..|db.orders|] == db.orders
    && db'.orders[|db.orders|].id == newId
    && db'.orders[|db.orders|].userId == uid
    && db'.orders[|db.orders|].status == PENDING
    && db'.orders[|db.orders|].currency == Some(Currency)
    && db'.orders[|db.orders|].paymentId == None
    && db'.orders[|db.orders|].totalAmount > 0
    && |db'.items| > |db.items|
    && db'.orders[|db.orders|].totalAmount == OrderSum(db'.items[|db.items|..], newId)
  }

  /** The new items belong to the new order and are priced from the catalogue. */
  predicate ItemsAppended(db: Db, db': Db, newId: OrderId) {
    && |db'.items| >= |db.items|
    && db'.items[..|db.items|] == db.items
    && forall k :: |db.items| <= k < |db'.items| ==>
         && db'.items[k].orderId == newId
         && db'.items[k].quantity >= 1
         && db'.items[k].productId in db.products
         && db'.items[k].unitPrice == db.products[db'.items[k].productId].price
  }

  /** Every product lost exactly the units of the new items, which its stock covered. */
  predicate StockReserved(db: Db, db': Db)
    requires |db'.items| >= |db.items|
  {
    && db'.products.Keys == db.products.Keys
    && forall pid :: pid in db.products ==>
         var taken := ItemQty(db'.items[|db.items|..], pid);
         && (taken == 0 || taken <= db.products[pid].stock)
         && db'.products[pid] == db.products[pid].(stock := db.products[pid].stock - taken)
  }

  /** Validation and pricing, before anything is written. */
  function Prepare(session: Option<Auth.Session>, items: seq<CheckoutItem>, products: map<ProductId, Product>)
    : (r: Result<seq<Line>, Failure>)
    ensures r.Ok? <==>
      && Auth.SignedInUser(session).Ok? && |items| > 0
      && BuildLines(items, products).Ok? && Total(BuildLines(items, products).value) > 0
    ensures r.Ok? ==> |r.value| == |items| && PricedFrom(r.value, products) && Total(r.value) > 0
    ensures r.Ok? ==> BuildLines(items, products) == r
    ensures Auth.SignedInUser(session).Err? ==> r == Err(Auth.SignedInUser(session).error)
    ensures Auth.SignedInUser(session).Ok? && |items| == 0 ==> r == Err(CartEmpty)
    ensures Auth.SignedInUser(session).Ok? ==>
      forall k :: 0 <= k < |items| && items[k].productId !in products
                  && (forall j :: 0 <= j < k ==> items[j].productId in products)
        ==> r == Err(ProductNotFound(items[k].productId))
    ensures
      (Auth.SignedInUser(session).Ok? && |items| > 0 && BuildLines(items, products).Ok?
       && Total(BuildLines(items, products).value) <= 0)
      ==> r == Err(InvalidTotal)
  {
    match Auth.SignedInUser(session)
    case Err(e) => Err(e)
    case Ok(_) =>
      if |items| == 0 then Err(CartEmpty)
      else
        match BuildLines(items, products)
        case Err(e) => Err(e)
        case Ok(lines) => if Total(lines) <= 0 then Err(InvalidTotal) else Ok(lines)
  }

  /** The `$transaction`: reserve every line, then create the order and its items, or change nothing. */
  function Commit(db: Db, uid: UserId, lines: seq<Line>, newId: OrderId): (r: Result<Db, Failure>)
    requires Fresh(db, newId)
    requires |lines| > 0 && PricedFrom(lines, db.products) && Total(lines) > 0
    ensures r.Ok? <==> Fits(db.products, lines)
    ensures r.Ok? ==> Placed(db, r.value, uid, newId)
    ensures r.Ok? ==> r.value.orders == db.orders + [Order(newId, uid, PENDING, Total(lines), Some(Currency), None)]
    ensures r.Ok? ==> r.value.items == db.items + ToItems(lines, newId)
    ensures r.Err? ==>
      && r.error.InsufficientStock?
      && (exists k :: 0 <= k < |lines| && r.error.productId == lines[k].productId)
      && Short(db.products, lines, r.error.productId)
  {
    ReserveSucceedsIff(db.products, lines);
    ReserveNamesOffender(db.products, lines);
    match Reserve(db.products, lines)
    case Err(e) => Err(e)
    case Ok(ps) =>
      var order := Order(newId, uid, PENDING, Total(lines), Some(Currency), None);
      var db' := Db(ps, db.orders + [order], db.items + ToItems(lines, newId));
      CommitPlaces(db, db', uid, lines, newId);
      Ok(db')
  }

  /** `createRazorpayOrder(items)`. */
  function CreateRazorpayOrder(
    cfg: Config, gateway: GatewayRequest -> GatewayReply,
    session: Option<Auth.Session>, items: seq<CheckoutItem>, db: Db, newId: OrderId): (out: Step<CheckoutResult>)
    requires Fresh(db, newId)
    ensures out.db == db || (session.Some? && Placed(db, out.db, session.value.user.id, newId))
    ensures out.result.Err? && !out.result.error.GatewayError? ==> out.db == db
    ensures out.result.Err? && out.result.error.GatewayError? ==>
      session.Some? && Placed(db, out.db, session.value.user.id, newId)
    ensures Auth.SignedInUser(session).Ok? && |items| == 0 ==> out.result == Err(CartEmpty)
    ensures out.result.Ok? ==>
      && session.Some? && Placed(db, out.db, session.value.user.id, newId)
      && out.result.value.orderId == newId
      && out.result.value.keyId == cfg.keyId
      && out.result.value.request.receipt == newId
      && out.result.value.request.currency == Currency
      && out.result.value.request.amount == out.db.orders[|db.orders|].totalAmount
      && Prepare(session, items, db.products).Ok?
      && out.result.value.request.amount == Total(Prepare(session, items, db.products).value)
    ensures Prepare(session, items, db.products).Err? ==>
      out == Step(db, Err(Prepare(session, items, db.products).error))
    ensures Prepare(session, items, db.products).Ok? && !Fits(db.products, Prepare(session, items, db.products).value) ==>
      && out.db == db && out.result.Err? && out.result.error.InsufficientStock?
      && Short(db.products, Prepare(session, items, db.products).value, out.result.error.productId)
    ensures Prepare(session, items, db.products).Ok? && Fits(db.products, Prepare(session, items, db.products).value) ==>
      var request := GatewayRequest(Total(Prepare(session, items, db.products).value), Currency, newId, 1);
      && Placed(db, out.db, session.value.user.id, newId)
      && (gateway(request).Created? ==>
            out.result == Ok(CheckoutResult(newId, gateway(request).remoteOrderId, request, cfg.keyId)))
      && (gateway(request).Rejected? ==> out.result == Err(GatewayError(gateway(request).body)))
  {
    match Prepare(session, items, db.products)
    case Err(e) => Step(db, Err(e))
    case Ok(lines) =>
      match Commit(db, session.value.user.id, lines, newId)
      case Err(e) => Step(db, Err(e))
      case Ok(db') =>
        var request := GatewayRequest(Total(lines), Currency, newId, 1);
        match gateway(request)
        case Rejected(text) => Step(db', Err(GatewayError(text)))
        case Created(remote) => Step(db', Ok(CheckoutResult(newId, remote, request, cfg.keyId)))
  }

  /**
    The update batch of `restoreStockForOrder`: each item's quantity goes
    back to its product; one missing product fails the whole batch.
  */
  function Restore(ps: map<ProductId, Product>, items: seq<OrderItem>): (r: Result<map<ProductId, Product>, Failure>)
    ensures r.Ok? <==> forall k :: 0 <= k < |items| ==> items[k].productId in ps
    ensures r.Ok? ==> r.value.Keys == ps.Keys
    ensures r.Ok? ==> forall pid :: pid in ps ==>
      r.value[pid] == ps[pid].(stock := ps[pid].stock + ItemQty(items, pid))
    ensures r.Err? ==> r.error.ProductNotFound?
  {
    if |items| == 0 then Ok(ps)
    else
      var it := items[0];
      if it.productId !in ps then Err(ProductNotFound(it.productId))
      else
        assert forall j :: 1 <= j < |items| ==> items[j] == items[1..][j - 1];
        Restore(ps[it.productId := ps[it.productId].(stock := ps[it.productId].stock + it.quantity)], items[1..])
  }

  /** `restoreStockForOrder(orderId)`: no status check, no session check. */
  function RestoreStockForOrder(db: Db, orderId: OrderId): (out: Step<()>)
    ensures out.db.orders == db.orders && out.db.items == db.items
    ensures out.result.Ok? <==>
      forall k :: 0 <= k < |ItemsOf(db.items, orderId)| ==> ItemsOf(db.items, orderId)[k].productId in db.products
    ensures out.result.Err? ==> out.result.error.ProductNotFound?
    ensures out.result.Ok? ==> out.db.products.Keys == db.products.Keys
    ensures out.result.Ok? ==> forall pid :: pid in db.products ==>
      out.db.products[pid] == db.products[pid].(stock := db.products[pid].stock + ItemQty(ItemsOf(db.items, orderId), pid))
    ensures out.result.Err? ==> out.db == db
  {
    match Restore(db.products, ItemsOf(db.items, orderId))
    case Ok(ps) => Step(db.(products := ps), Ok(()))
    case Err(e) => Step(db, Err(e))
  }

  // ---------------------------------------------------------------------------
  // Proofs

  lemma {:induction false} LineQtyNonNegative(lines: seq<Line>, pid: ProductId)
    requires forall k :: 0 <= k < |lines| ==> lines[k].quantity >= 0
    ensures LineQty(lines, pid) >= 0
  {
    if |lines| > 0 {
      LineQtyNonNegative(lines[1..], pid);
    }
  }

  lemma {:induction false} LineQtyAbsent(lines: seq<Line>, pid: ProductId)
    requires forall k :: 0 <= k < |lines| ==> lines[k].productId != pid
    ensures LineQty(lines, pid) == 0
  {
    if |lines| > 0 {
      LineQtyAbsent(lines[1..], pid);
    }
  }

  /** Every product of the cart has stock for all of its lines together. */
  predicate Fits(ps: map<ProductId, Product>, lines: seq<Line>) {
    forall k :: 0 <= k < |lines| ==>
      lines[k].productId in ps && LineQty(lines, lines[k].productId) <= ps[lines[k].productId].stock
  }

  /** `pid` is short for the cart: it is missing, or its lines together ask for more than its stock. */
  predicate Short(ps: map<ProductId, Product>, lines: seq<Line>, pid: ProductId) {
    pid !in ps || LineQty(lines, pid) > ps[pid].stock
  }

  /** A failed reservation names a product whose stock cannot cover its lines. */
  lemma {:induction false} ReserveNamesOffender(ps: map<ProductId, Product>, lines: seq<Line>)
    requires forall k :: 0 <= k < |lines| ==> lines[k].quantity >= 1
    ensures Reserve(ps, lines).Err? ==> Short(ps, lines, Reserve(ps, lines).error.productId)
  {
    if |lines| > 0 && Reserve(ps, lines).Err? {
      var l, rest := lines[0], lines[1..];
      var pid := Reserve(ps, lines).error.productId;
      assert forall j :: 0 <= j < |rest| ==> rest[j] == lines[j + 1];
      assert LineQty(lines, pid) == (if pid == l.productId then l.quantity else 0) + LineQty(rest, pid);
      if l.productId in ps && ps[l.productId].stock >= l.quantity {
        var ps' := ps[l.productId := ps[l.productId].(stock := ps[l.productId].stock - l.quantity)];
        assert Reserve(ps, lines) == Reserve(ps', rest);
        ReserveNamesOffender(ps', rest);
      } else {
        LineQtyNonNegative(rest, pid);
      }
    }
  }

  /**
    The sequential compare-and-decrement succeeds exactly when, for every
    product in the cart, all its lines together fit in the stock it had
    before the transaction.
  */
  lemma {:induction false} ReserveSucceedsIff(ps: map<ProductId, Product>, lines: seq<Line>)
    requires forall k :: 0 <= k < |lines| ==> lines[k].quantity >= 1
    ensures Reserve(ps, lines).Ok? <==> Fits(ps, lines)
  {
    if Reserve(ps, lines).Ok? {
      ReserveOkFits(ps, lines);
    }
    if Fits(ps, lines) {
      FitsReserveOk(ps, lines);
    }
  }

  lemma {:induction false} ReserveOkFits(ps: map<ProductId, Product>, lines: seq<Line>)
    requires forall k :: 0 <= k < |lines| ==> lines[k].quantity >= 1
    requires Reserve(ps, lines).Ok?
    ensures Fits(ps, lines)
  {
    if |lines| > 0 {
      var l, rest := lines[0], lines[1..];
      var ps' := ps[l.productId := ps[l.productId].(stock := ps[l.productId].stock - l.quantity)];
      assert forall j :: 0 <= j < |rest| ==> rest[j] == lines[j + 1];
      ReserveOkFits(ps', rest);
      forall k | 0 <= k < |lines|
        ensures lines[k].productId in ps && LineQty(lines, lines[k].productId) <= ps[lines[k].productId].stock
      {
        var x := lines[k].productId;
        assert LineQty(lines, x) == (if x == l.productId then l.quantity else 0) + LineQty(rest, x);
        if k > 0 {
          assert rest[k - 1].productId == x;
        } else if j :| 0 <= j < |rest| && rest[j].productId == x {
          assert LineQty(rest, x) <= ps'[x].stock;
        } else {
          LineQtyAbsent(rest, x);
        }
      }
    }
  }

  lemma {:induction false} FitsReserveOk(ps: map<ProductId, Product>, lines: seq<Line>)
    requires forall k :: 0 <= k < |lines| ==> lines[k].quantity >= 1
    requires Fits(ps, lines)
    ensures Reserve(ps, lines).Ok?
  {
    if |lines| > 0 {
      var l, rest := lines[0], lines[1..];
      assert forall j :: 0 <= j < |rest| ==> rest[j] == lines[j + 1];
      LineQtyNonNegative(rest, l.productId);
      assert LineQty(lines, l.productId) == l.quantity + LineQty(rest, l.productId);
      assert l.productId in ps && LineQty(lines, l.productId) <= ps[l.productId].stock;
      var ps' := ps[l.productId := ps[l.productId].(stock := ps[l.productId].stock - l.quantity)];
      FitsAfterFirst(ps, lines, ps');
      FitsReserveOk(ps', rest);
      assert Reserve(ps, lines) == Reserve(ps', rest);
    }
  }

  /** Taking the first line's units leaves the rest of the cart fitting. */
  lemma {:induction false} FitsAfterFirst(ps: map<ProductId, Product>, lines: seq<Line>, ps': map<ProductId, Product>)
    requires |lines| > 0 && Fits(ps, lines)
    requires lines[0].productId in ps
    requires ps' == ps[lines[0].productId := ps[lines[0].productId].(stock := ps[lines[0].productId].stock - lines[0].quantity)]
    ensures Fits(ps', lines[1..])
  {
    var l, rest := lines[0], lines[1..];
    forall j | 0 <= j < |rest|
      ensures rest[j].productId in ps' && LineQty(rest, rest[j].productId) <= ps'[rest[j].productId].stock
    {
      var x := rest[j].productId;
      assert lines[j + 1].productId == x;
      assert LineQty(lines, x) == (if x == l.productId then l.quantity else 0) + LineQty(rest, x);
    }
  }

  lemma {:induction false} ToItemsSums(lines: seq<Line>, oid: OrderId, pid: ProductId)
    ensures ItemQty(ToItems(lines, oid), pid) == LineQty(lines, pid)
    ensures OrderSum(ToItems(lines, oid), oid) == Total(lines)
  {
    if |lines| > 0 {
      ToItemsSums(lines[1..], oid, pid);
      assert ToItems(lines, oid)[1..] == ToItems(lines[1..], oid);
    }
  }

  lemma {:induction false} CommitPlaces(db: Db, db': Db, uid: UserId, lines: seq<Line>, newId: OrderId)
    requires Fresh(db, newId)
    requires |lines| > 0 && PricedFrom(lines, db.products) && Total(lines) > 0
    requires Reserve(db.products, lines).Ok?
    requires db' == Db(Reserve(db.products, lines).value,
                       db.orders + [Order(newId, uid, PENDING, Total(lines), Some(Currency), None)],
                       db.items + ToItems(lines, newId))
    ensures Placed(db, db', uid, newId)
  {
    var added := ToItems(lines, newId);
    assert db'.items[|db.items|..] == added;
    assert db'.orders[..|db.orders|] == db.orders;
    assert db'.items[..|db.items|] == db.items;
    ToItemsSums(lines, newId, "");
    assert OrderAppended(db, db', uid, newId);
    assert ItemsAppended(db, db', newId);
    ReserveTakes(db.products, lines, newId);
  }

  lemma {:induction false} ReserveTakes(ps: map<ProductId, Product>, lines: seq<Line>, newId: OrderId)
    requires forall k :: 0 <= k < |lines| ==> lines[k].quantity >= 1
    requires Reserve(ps, lines).Ok?
    ensures forall pid :: pid in ps ==>
      var taken := ItemQty(ToItems(lines, newId), pid);
      && (taken == 0 || taken <= ps[pid].stock)
      && Reserve(ps, lines).value[pid] == ps[pid].(stock := ps[pid].stock - taken)
  {
    ReserveSucceedsIff(ps, lines);
    forall pid | pid in ps
      ensures LineQty(lines, pid) == 0 || LineQty(lines, pid) <= ps[pid].stock
      ensures ItemQty(ToItems(lines, newId), pid) == LineQty(lines, pid)
    {
      ToItemsSums(lines, newId, pid);
      if forall k :: 0 <= k < |lines| ==> lines[k].productId != pid {
        LineQtyAbsent(lines, pid);
      }
    }
  }

  lemma {:induction false} ItemsOfPlaced(db: Db, db': Db, newId: OrderId)
    requires Fresh(db, newId)
    requires ItemsAppended(db, db', newId)
    ensures ItemsOf(db'.items, newId) == db'.items[|db.items|..]
  {
    var added := db'.items[|db.items|..];
    assert db'.items == db.items + added;
    ItemsOfAppend(db.items, added, newId);
    ItemsOfNone(db.items, newId);
    ItemsOfAll(added, newId);
  }

  /** Restoring right after a committed checkout puts every stock back where it was. */
  lemma {:induction false} RestoreAfterCheckout(db: Db, db': Db, uid: UserId, newId: OrderId)
    requires Fresh(db, newId)
    requires Placed(db, db', uid, newId)
    ensures RestoreStockForOrder(db', newId).result.Ok?
    ensures RestoreStockForOrder(db', newId).db.products == db.products
  {
    ItemsOfPlaced(db, db', newId);
    var added := db'.items[|db.items|..];
    var r := Restore(db'.products, added);
    assert r.Ok? by {
      forall k | 0 <= k < |added| ensures added[k].productId in db'.products {
        assert added[k] == db'.items[|db.items| + k];
      }
    }
    forall pid | pid in db.products
      ensures r.value[pid] == db.products[pid]
    {
    }
    assert r.value == db.products;
  }

  /** With no status check, a second restore gives the same units back again. */
  lemma {:induction false} RestoreTwiceAddsTwice(db: Db, orderId: OrderId)
    requires RestoreStockForOrder(db, orderId).result.Ok?
    ensures var twice := RestoreStockForOrder(RestoreStockForOrder(db, orderId).db, orderId);
      && twice.result.Ok?
      && forall pid :: pid in db.products ==>
           twice.db.products[pid].stock == db.products[pid].stock + 2 * ItemQty(ItemsOf(db.items, orderId), pid)
  {
  }
}

=== FILE: checkout_flow.dfy ===
/**
  The checkout page's payment flow (components/user/CheckoutClient.tsx):
  "Buy all" sends the cart to `createRazorpayOrder` and opens the payment
  window; the window's `handler` calls `verifyRazorpayPayment`, clearing
  the cart and going to the order page on success, and calling
  `restoreStockForOrder` on failure. Loading the gateway script, the
  window itself, alerts, `setTimeout` and `setProcessing` are UI effects;
  the three-second delay before clearing the cart is collapsed.
*/
module CheckoutFlow {
  import opened Common
  import opened Store
  import Auth
  import Cart
  import Checkout
  import Payment
  import CartLines

  /** What `createRazorpayOrder(cart)` receives: the same entries, quantities as JS numbers. */
  function ToCheckoutItems(cart: seq<Cart.CartItem>): (r: seq<Checkout.CheckoutItem>)
    ensures |r| == |cart|
    ensures forall k :: 0 <= k < |r| ==>
      r[k].productId == cart[k].productId && r[k].quantity == cart[k].quantity as real
  {
    seq(|cart|, k requires 0 <= k < |cart| => Checkout.CheckoutItem(cart[k].productId, cart[k].quantity as real))
  }

  datatype BuyOutcome =
    | NotStarted
    | InitFailed(error: Failure)
    | Opened(checkout: Checkout.CheckoutResult)

  /** `handleBuyAll` up to `rzp.open()`: an empty cart does nothing at all. */
  function BuyAll(
    cfg: Checkout.Config, gateway: Checkout.GatewayRequest -> Checkout.GatewayReply,
    session: Option<Auth.Session>, cart: seq<Cart.CartItem>, db: Db, newId: OrderId): (out: (Db, BuyOutcome))
    requires Fresh(db, newId)
    ensures |cart| == 0 ==> out == (db, NotStarted)
    ensures |cart| > 0 ==> out.1 != NotStarted
    ensures out.1.Opened? ==>
      && session.Some? && Checkout.Placed(db, out.0, session.value.user.id, newId)
      && out.1.checkout.orderId == newId
      && Checkout.BuildLines(ToCheckoutItems(cart), db.products).Ok?
      && out.1.checkout.request.amount == Checkout.Total(Checkout.BuildLines(ToCheckoutItems(cart), db.products).value)
    ensures out.1.InitFailed? ==>
      out.0 == db || (out.1.error.GatewayError? && session.Some? && Checkout.Placed(db, out.0, session.value.user.id, newId))
    ensures
      var prepared := Checkout.Prepare(session, ToCheckoutItems(cart), db.products);
      (prepared.Ok? && Checkout.Fits(db.products, prepared.value)
       && gateway(Checkout.GatewayRequest(Checkout.Total(prepared.value), Checkout.Currency, newId, 1)).Created?)
      ==> out.1.Opened?
  {
    if |cart| == 0 then (db, NotStarted)
    else
      var step := Checkout.CreateRazorpayOrder(cfg, gateway, session, ToCheckoutItems(cart), db, newId);
      match step.result
      case Err(e) => (step.db, InitFailed(e))
      case Ok(res) => (step.db, Opened(res))
  }

  /** The three fields the payment window hands to `handler`. */
  datatype GatewayResponse = GatewayResponse(paymentId: string, remoteOrderId: string, signature: string)

  /** The state the handler leaves: the database, the client cart, and where the page went. */
  datatype AfterPayment = AfterPayment(db: Db, cart: seq<Cart.CartItem>, verified: bool, redirect: Option<string>)

  function OrderPage(orderId: OrderId): string {
    "/orders/" + orderId
  }

  /** The payment window's `handler(response)` for shop order `orderId`. */
  function OnPayment(
    mac: (string, string) -> string, secret: string, session: Option<Auth.Session>,
    resp: GatewayResponse, orderId: OrderId, cart: seq<Cart.CartItem>, db: Db): (out: AfterPayment)
    ensures var v := Payment.VerifyRazorpayPayment(mac, secret, session,
                       Payment.VerifyPayload(resp.paymentId, resp.remoteOrderId, resp.signature, orderId), db);
      && (out.verified <==> v.result.Ok?)
      && (out.verified ==> out.db == v.db && out.cart == [] && out.redirect == Some(OrderPage(orderId)))
      && (!out.verified ==> out.db == Checkout.RestoreStockForOrder(db, orderId).db && out.cart == cart && out.redirect.None?)
    ensures out.db.items == db.items && |out.db.orders| == |db.orders|
    ensures !out.verified ==> out.db.orders == db.orders
    ensures out.verified ==> out.db.products == db.products
  {
    var payload := Payment.VerifyPayload(resp.paymentId, resp.remoteOrderId, resp.signature, orderId);
    var v := Payment.VerifyRazorpayPayment(mac, secret, session, payload, db);
    if v.result.Ok? then AfterPayment(v.db, Cart.Clear(), true, Some(OrderPage(orderId)))
    else AfterPayment(Checkout.RestoreStockForOrder(db, orderId).db, cart, false, None)
  }

  // ---------------------------------------------------------------------------
  // End to end

  /**
    A payment whose verification fails after a committed checkout gives
    every reserved unit back; the new order stays PENDING and the client
    keeps its cart. `BuyAll` guarantees `Placed` whenever it opens the
    payment window.
  */
  lemma {:induction false} FailedPaymentReleasesStock(
    mac: (string, string) -> string, secret: string, session: Option<Auth.Session>,
    cart: seq<Cart.CartItem>, db: Db, placed: Db, uid: UserId, newId: OrderId, resp: GatewayResponse)
    requires Fresh(db, newId) && Checkout.Placed(db, placed, uid, newId)
    requires !OnPayment(mac, secret, session, resp, newId, cart, placed).verified
    ensures var after := OnPayment(mac, secret, session, resp, newId, cart, placed);
      && after.db.products == db.products
      && after.db.orders == placed.orders
      && after.db.orders[|db.orders|].id == newId
      && after.db.orders[|db.orders|].status == PENDING
      && after.cart == cart
  {
    Checkout.RestoreAfterCheckout(db, placed, uid, newId);
  }

  /**
    A payment whose signature checks out after a committed checkout marks
    the new order PAID with the payment id, keeps the stock reserved, and
    empties the client cart.
  */
  lemma {:induction false} SignedPaymentCompletesOrder(
    mac: (string, string) -> string, secret: string, session: Option<Auth.Session>,
    cart: seq<Cart.CartItem>, db: Db, placed: Db, uid: UserId, newId: OrderId, resp: GatewayResponse)
    requires Fresh(db, newId) && Checkout.Placed(db, placed, uid, newId)
    requires Auth.SignedInUser(session).Ok?
    requires Payment.SignatureValid(mac, secret, Payment.VerifyPayload(resp.paymentId, resp.remoteOrderId, resp.signature, newId))
    ensures var after := OnPayment(mac, secret, session, resp, newId, cart, placed);
      && after.verified
      && after.db.products == placed.products
      && after.db.orders[|db.orders|] == placed.orders[|db.orders|].(status := PAID, paymentId := Some(resp.paymentId))
      && after.cart == []
  {
    assert placed.orders[|db.orders|].id == newId;
    assert HasOrder(placed.orders, newId);
    var i := IndexOfOrder(placed.orders, newId).value;
    assert forall j :: 0 <= j < |db.orders| ==> placed.orders[j].id != newId by {
      assert placed.orders[..|db.orders|] == db.orders;
    }
    assert i == |db.orders|;
  }

  // ---------------------------------------------------------------------------
  // What the page shows against what the gateway is asked to charge

  lemma {:induction false} TotalAppend(a: seq<Checkout.Line>, b: seq<Checkout.Line>)
    ensures Checkout.Total(a + b) == Checkout.Total(a) + Checkout.Total(b)
  {
    if |a| == 0 {
      assert a + b == b;
    } else {
      assert (a + b)[1..] == a[1..] + b;
      TotalAppend(a[1..], b);
    }
  }

  /** Pricing a cart prices its prefix the same way, and whole quantities stay as they are. */
  lemma {:induction false} PricedPrefix(cart: seq<Cart.CartItem>, products: map<ProductId, Product>)
    requires |cart| > 0
    requires forall k :: 0 <= k < |cart| ==> cart[k].productId in products && cart[k].quantity >= 1
    ensures var n := |cart| - 1;
      var lines := Checkout.BuildLines(ToCheckoutItems(cart), products);
      && lines.Ok?
      && Checkout.BuildLines(ToCheckoutItems(cart[..n]), products) == Ok(lines.value[..n])
      && lines.value == lines.value[..n]
           + [Checkout.Line(cart[n].productId, cart[n].quantity, products[cart[n].productId].price)]
  {
    var n := |cart| - 1;
    var items := ToCheckoutItems(cart);
    assert forall k :: 0 <= k < |items| ==> items[k].productId in products;
    assert ToCheckoutItems(cart[..n]) == items[..n];
    BuildLinesPrefix(items, products, n);
    var lines := Checkout.BuildLines(items, products).value;
    assert (cart[n].quantity as real).Floor == cart[n].quantity;
    assert lines[n] == Checkout.Line(cart[n].productId, cart[n].quantity, products[cart[n].productId].price);
    assert lines == lines[..n] + [lines[n]];
  }

  /** Pricing a prefix of the items gives the prefix of the lines. */
  lemma {:induction false} BuildLinesPrefix(items: seq<Checkout.CheckoutItem>, products: map<ProductId, Product>, n: nat)
    requires n <= |items|
    requires Checkout.BuildLines(items, products).Ok?
    ensures Checkout.BuildLines(items[..n], products) == Ok(Checkout.BuildLines(items, products).value[..n])
  {
    var lines := Checkout.BuildLines(items, products).value;
    var front := items[..n];
    assert forall k :: 0 <= k < n ==> front[k] == items[k];
    var flines := Checkout.BuildLines(front, products).value;
    assert |flines| == n;
    assert forall k :: 0 <= k < n ==> flines[k] == lines[k];
    assert flines == lines[..n];
  }

  /** The memo's lines and total grow by one entry whose product the catalogue lists. */
  lemma {:induction false} MemoSnoc(cart: seq<Cart.CartItem>, catalogue: seq<Product>, products: map<ProductId, Product>)
    requires CartLines.ListsCatalogue(catalogue, products)
    requires |cart| > 0 && cart[|cart| - 1].productId in products
    ensures var last := cart[|cart| - 1];
      CartLines.MemoTotal(CartLines.MemoLines(cart, catalogue))
      == CartLines.MemoTotal(CartLines.MemoLines(cart[..|cart| - 1], catalogue))
         + products[last.productId].price * last.quantity
  {
    var last := cart[|cart| - 1];
    CartLines.FindProductInCatalogue(catalogue, products, last.productId);
    var memo := CartLines.MemoLines(cart[..|cart| - 1], catalogue);
    var line := CartLines.MemoLine(products[last.productId], last.quantity);
    assert CartLines.MemoLines(cart, catalogue) == memo + [line];
    assert (memo + [line])[..|memo|] == memo;
  }

  /**
    For a cart of whole positive quantities, the lines the server prices
    (`Math.max(1, Math.floor(q))` leaves whole quantities as they are) add
    up to the total the checkout page displays. `BuildLines` succeeds on
    such a cart whenever every product exists.
  */
  lemma {:induction false} ChargedTotalMatchesShown(
    cart: seq<Cart.CartItem>, catalogue: seq<Product>, products: map<ProductId, Product>, lines: seq<Checkout.Line>)
    requires CartLines.ListsCatalogue(catalogue, products)
    requires forall k :: 0 <= k < |cart| ==> cart[k].productId in products && cart[k].quantity >= 1
    requires Checkout.BuildLines(ToCheckoutItems(cart), products) == Ok(lines)
    ensures Checkout.Total(lines) == CartLines.MemoTotal(CartLines.MemoLines(cart, catalogue))
  {
    if |cart| > 0 {
      var n := |cart| - 1;
      var front := cart[..n];
      assert forall k :: 0 <= k < |front| ==> front[k] == cart[k];
      PricedPrefix(cart, products);
      ChargedTotalMatchesShown(front, catalogue, products, lines[..n]);
      var tail := Checkout.Line(cart[n].productId, cart[n].quantity, products[cart[n].productId].price);
      TotalAppend(lines[..n], [tail]);
      TotalOne(tail);
      MemoSnoc(cart, catalogue, products);
    }
  }

  lemma {:induction false} TotalOne(l: Checkout.Line)
    ensures Checkout.Total([l]) == l.unitPrice * l.quantity
  {
    assert [l][1..] == [];
  }

  /**
    The amount "Buy all" asks the gateway for is the total the page showed,
    provided the page's product list is still the catalogue and every cart
    quantity is a whole number of at least one. A price change after the
    page rendered, or a zero quantity (shown at 0, charged as 1), breaks it.
  */
  lemma {:induction false} ChargedAmountIsShownTotal(
    cfg: Checkout.Config, gateway: Checkout.GatewayRequest -> Checkout.GatewayReply,
    session: Option<Auth.Session>, cart: seq<Cart.CartItem>, catalogue: seq<Product>, db: Db, newId: OrderId)
    requires Fresh(db, newId) && CartLines.ListsCatalogue(catalogue, db.products)
    requires forall k :: 0 <= k < |cart| ==> cart[k].productId in db.products && cart[k].quantity >= 1
    requires BuyAll(cfg, gateway, session, cart, db, newId).1.Opened?
    ensures BuyAll(cfg, gateway, session, cart, db, newId).1.checkout.request.amount
         == CartLines.MemoTotal(CartLines.MemoLines(cart, catalogue))
  {
    var lines := Checkout.BuildLines(ToCheckoutItems(cart), db.products).value;
    ChargedTotalMatchesShown(cart, catalogue, db.products, lines);
  }
}

=== FILE: common.dfy ===
/** Failure-carrying wrappers shared by every module of the storefront model. */
module Common {

  /** A value that may be absent: JavaScript's `undefined`/`null` results. */
  datatype Option<+T> = None | Some(value: T) {
    function GetOr(default: T): T {
      match this
      case Some(v) => v
      case None => default
    }
  }

  /** Either a value or the error a server action throws. */
  datatype Result<+T, +E> = Ok(value: T) | Err(error: E)
}

=== FILE: payment.dfy ===
/**
  `verifyRazorpayPayment` of app/actions/paymentActions.ts: the client
  hands back the gateway's payment id, order id and signature together
  with the shop's own order id; the server recomputes the HMAC-SHA256 of
  "<gateway order id>|<payment id>" and, when it matches, marks the shop's
  order PAID. HMAC is the `mac(secret, message)` argument.

  The signature covers only the gateway's ids: the shop order id that is
  updated is taken from the payload as it is, and neither its owner nor
  its status is checked.
*/
module Payment {
  import opened Common
  import opened Store
  import Auth

  datatype VerifyPayload = VerifyPayload(
    paymentId: string,
    remoteOrderId: string,
    signature: string,
    orderId: OrderId)

  /** The string the gateway signs: "<order id>|<payment id>". */
  function SignedMessage(remoteOrderId: string, paymentId: string): (m: string)
    ensures |m| == |remoteOrderId| + 1 + |paymentId|
    ensures m[..|remoteOrderId|] == remoteOrderId && m[|remoteOrderId|] == '|'
    ensures m[|remoteOrderId| + 1..] == paymentId
  {
    remoteOrderId + "|" + paymentId
  }

  predicate SignatureValid(mac: (string, string) -> string, secret: string, p: VerifyPayload) {
    mac(secret, SignedMessage(p.remoteOrderId, p.paymentId)) == p.signature
  }

  /**
    Throws "Unauthorized" (or redirects) without a signed-in user, "Invalid
    signature" on a mismatch, and the update's not-found error when no
    order has the id; otherwise returns the updated order.
  */
  function VerifyRazorpayPayment(
    mac: (string, string) -> string, secret: string,
    session: Option<Auth.Session>, p: VerifyPayload, db: Db): (out: Step<Order>)
    ensures out.result.Ok? <==>
      Auth.SignedInUser(session).Ok? && SignatureValid(mac, secret, p) && HasOrder(db.orders, p.orderId)
    ensures out.result.Err? ==> out.db == db
    ensures Auth.SignedInUser(session).Err? ==> out.result == Err(Auth.SignedInUser(session).error)
    ensures Auth.SignedInUser(session).Ok? && !SignatureValid(mac, secret, p) ==> out.result == Err(InvalidSignature)
    ensures Auth.SignedInUser(session).Ok? && SignatureValid(mac, secret, p) && !HasOrder(db.orders, p.orderId)
            ==> out.result == Err(OrderNotFound(p.orderId))
    ensures out.result.Ok? ==>
      && out.db.products == db.products && out.db.items == db.items
      && |out.db.orders| == |db.orders|
      && exists i :: 0 <= i < |db.orders| && db.orders[i].id == p.orderId
           && out.result.value == out.db.orders[i]
           && out.db.orders[i] == db.orders[i].(status := PAID, paymentId := Some(p.paymentId))
           && forall j :: 0 <= j < |db.orders| && j != i ==> out.db.orders[j] == db.orders[j]
  {
    match Auth.SignedInUser(session)
    case Err(e) => Step(db, Err(e))
    case Ok(_) =>
      if !SignatureValid(mac, secret, p) then Step(db, Err(InvalidSignature))
      else
        match IndexOfOrder(db.orders, p.orderId)
        case None => Step(db, Err(OrderNotFound(p.orderId)))
        case Some(i) =>
          var orders := MarkPaid(db.orders, i, p.paymentId);
          Step(db.(orders := orders), Ok(orders[i]))
  }

  /** Marking an order PAID leaves every order id where it was. */
  lemma {:induction false} MarkPaidKeepsIds(orders: seq<Order>, i: nat, paymentId: string, id: OrderId)
    requires i < |orders|
    ensures IndexOfOrder(MarkPaid(orders, i, paymentId), id) == IndexOfOrder(orders, id)
    ensures HasOrder(MarkPaid(orders, i, paymentId), id) <==> HasOrder(orders, id)
  {
    var after := MarkPaid(orders, i, paymentId);
    var ra, rb := IndexOfOrder(orders, id), IndexOfOrder(after, id);
    if ra.Some? {
      assert after[ra.value].id == id;
    }
    if rb.Some? {
      assert orders[rb.value].id == id;
    }
  }

  /** Marking the same order with the same payment id twice is marking it once. */
  lemma {:induction false} MarkPaidIdempotent(orders: seq<Order>, i: nat, paymentId: string)
    requires i < |orders|
    ensures MarkPaid(MarkPaid(orders, i, paymentId), i, paymentId) == MarkPaid(orders, i, paymentId)
  {
  }

  /** A repeated verification with the same payload succeeds again and changes nothing more. */
  lemma {:induction false} VerifyIdempotent(
    mac: (string, string) -> string, secret: string,
    session: Option<Auth.Session>, p: VerifyPayload, db: Db)
    requires VerifyRazorpayPayment(mac, secret, session, p, db).result.Ok?
    ensures var once := VerifyRazorpayPayment(mac, secret, session, p, db);
      var twice := VerifyRazorpayPayment(mac, secret, session, p, once.db);
      twice.result.Ok? && twice.db == once.db
  {
    var i := IndexOfOrder(db.orders, p.orderId).value;
    MarkPaidKeepsIds(db.orders, i, p.paymentId, p.orderId);
    MarkPaidIdempotent(db.orders, i, p.paymentId);
  }

  /**
    The signature binds the gateway's ids only: a payload that verifies for
    one shop order verifies, for any signed-in user, for every other order
    that exists, whatever its owner or status.
  */
  lemma {:induction false} SignatureIgnoresShopOrder(
    mac: (string, string) -> string, secret: string,
    session: Option<Auth.Session>, other: Option<Auth.Session>,
    p: VerifyPayload, db: Db, orderId: OrderId)
    requires VerifyRazorpayPayment(mac, secret, session, p, db).result.Ok?
    requires Auth.SignedInUser(other).Ok? && HasOrder(db.orders, orderId)
    ensures VerifyRazorpayPayment(mac, secret, other, p.(orderId := orderId), db).result.Ok?
  {
  }
}

=== FILE: pending_cart.dfy ===
/**
  The product and server-side cart actions of app/actions/productActions.ts:
  `deleteProduct`, which refuses to delete a product that order items
  still refer to, and `addToCart` / `removeFromCart`, which keep a user's
  PENDING order, its items and its `totalAmount` in step.

  `addToCart` as written adds the product's current price to the total
  even when it only adds a unit to an existing item whose `unitPrice` was
  snapshotted at an earlier price; `AddToCartCorrected` charges the
  item's own `unitPrice` instead and keeps every order's total equal to
  the sum of its items.
*/
module PendingCart {
  import opened Common
  import opened Store
  import Auth

  datatype DeleteOutcome = Deleted | InUse(count: nat) | DeleteFailed

  /**
    `deleteProduct(id)`: `{ ok: false, reason: "IN_USE" }` while order items
    refer to the product, `{ ok: true }` after deleting it, and
    `{ ok: false, reason: "ERROR" }` when the delete throws (no such row).
  */
  function DeleteProduct(db: Db, id: ProductId): (out: (Db, DeleteOutcome))
    ensures References(db.items, id) > 0 ==> out == (db, InUse(References(db.items, id)))
    ensures out.1 == Deleted <==> References(db.items, id) == 0 && id in db.products
    ensures out.1 == Deleted ==> out.0 == db.(products := db.products - {id})
    ensures out.1 != Deleted ==> out.0 == db
    ensures References(db.items, id) == 0 && id !in db.products ==> out == (db, DeleteFailed)
    ensures NoDanglingItems(db) ==> NoDanglingItems(out.0)
  {
    var n := References(db.items, id);
    if n > 0 then (db, InUse(n))
    else if id !in db.products then (db, DeleteFailed)
    else (db.(products := db.products - {id}), Deleted)
  }

  predicate IsPendingOf(o: Order, uid: UserId) {
    o.userId == uid && o.status == PENDING
  }

  predicate IsLine(it: OrderItem, oid: OrderId, pid: ProductId) {
    it.orderId == oid && it.productId == pid
  }

  /** `order.findFirst({ where: { userId, status: PENDING } })`, as a position. */
  function PendingIndex(orders: seq<Order>, uid: UserId): (r: Option<nat>)
    ensures r.Some? ==> r.value < |orders| && IsPendingOf(orders[r.value], uid)
    ensures r.Some? ==> forall j :: 0 <= j < r.value ==> !IsPendingOf(orders[j], uid)
    ensures r.None? <==> forall j :: 0 <= j < |orders| ==> !IsPendingOf(orders[j], uid)
  {
    if |orders| == 0 then None
    else if IsPendingOf(orders[0], uid) then Some(0)
    else
      assert forall j :: 1 <= j < |orders| ==> orders[j] == orders[1..][j - 1];
      match PendingIndex(orders[1..], uid)
      case Some(k) => Some(k + 1)
      case None => None
  }

  /** `orderItem.findFirst({ where: { orderId, productId } })`, as a position. */
  function ItemIndex(items: seq<OrderItem>, oid: OrderId, pid: ProductId): (r: Option<nat>)
    ensures r.Some? ==> r.value < |items| && IsLine(items[r.value], oid, pid)
    ensures r.Some? ==> forall j :: 0 <= j < r.value ==> !IsLine(items[j], oid, pid)
    ensures r.None? <==> forall j :: 0 <= j < |items| ==> !IsLine(items[j], oid, pid)
  {
    if |items| == 0 then None
    else if IsLine(items[0], oid, pid) then Some(0)
    else
      assert forall j :: 1 <= j < |items| ==> items[j] == items[1..][j - 1];
      match ItemIndex(items[1..], oid, pid)
      case Some(k) => Some(k + 1)
      case None => None
  }

  /** The user's PENDING order and its position, creating one with total 0 when there is none. */
  function EnsurePending(orders: seq<Order>, uid: UserId, newId: OrderId): (r: (seq<Order>, nat))
    ensures r.1 < |r.0| && IsPendingOf(r.0[r.1], uid)
    ensures PendingIndex(orders, uid).Some? ==> r == (orders, PendingIndex(orders, uid).value)
    ensures PendingIndex(orders, uid).None? ==>
      r.0 == orders + [Order(newId, uid, PENDING, 0, None, None)] && r.1 == |orders|
  {
    match PendingIndex(orders, uid)
    case Some(i) => (orders, i)
    case None => (orders + [Order(newId, uid, PENDING, 0, None, None)], |orders|)
  }

  /** The item step of `addToCart`: one more unit on the existing item, or a new item at `price`. */
  function PutItem(items: seq<OrderItem>, oid: OrderId, pid: ProductId, price: int): seq<OrderItem> {
    match ItemIndex(items, oid, pid)
    case Some(k) => items[k := items[k].(quantity := items[k].quantity + 1)]
    case None => items + [OrderItem(oid, pid, 1, price)]
  }

  /** One unit of `pid` into `uid`'s PENDING order, whose total rises by `charge`. */
  function AddLine(db: Db, uid: UserId, pid: ProductId, newId: OrderId, charge: int): Db
    requires pid in db.products
  {
    var (orders, i) := EnsurePending(db.orders, uid, newId);
    var items := PutItem(db.items, orders[i].id, pid, db.products[pid].price);
    Db(db.products, orders[i := orders[i].(totalAmount := orders[i].totalAmount + charge)], items)
  }

  /** What one more unit is worth: the existing item's snapshot price, else the current price. */
  function SnapshotCharge(db: Db, uid: UserId, pid: ProductId, newId: OrderId): int
    requires pid in db.products
  {
    var (orders, i) := EnsurePending(db.orders, uid, newId);
    match ItemIndex(db.items, orders[i].id, pid)
    case Some(k) => db.items[k].unitPrice
    case None => db.products[pid].price
  }

  /** The id of the order `addToCart` works on: the user's first PENDING order, else the new one. */
  function CartOrderId(orders: seq<Order>, uid: UserId, newId: OrderId): OrderId {
    match PendingIndex(orders, uid)
    case Some(i) => orders[i].id
    case None => newId
  }

  /**
    One unit of `pid` went into `uid`'s cart, whose total rose by `charge`:
    the first PENDING order gains `charge`, or a new PENDING order with total
    `charge` is appended; the cart's first item for the product gains one
    unit, or a one-unit item at the product's price is appended. Nothing
    else changes.
  */
  predicate UnitAdded(db: Db, db': Db, uid: UserId, pid: ProductId, newId: OrderId, charge: int)
    requires pid in db.products
  {
    var oid := CartOrderId(db.orders, uid, newId);
    && db'.products == db.products
    && (match PendingIndex(db.orders, uid)
        case Some(i) => db'.orders == db.orders[i := db.orders[i].(totalAmount := db.orders[i].totalAmount + charge)]
        case None => db'.orders == db.orders + [Order(newId, uid, PENDING, charge, None, None)])
    && (match ItemIndex(db.items, oid, pid)
        case Some(k) => db'.items == db.items[k := db.items[k].(quantity := db.items[k].quantity + 1)]
        case None => db'.items == db.items + [OrderItem(oid, pid, 1, db.products[pid].price)])
  }

  /** `addToCart(productId)` as written: the total always rises by `product.price`. */
  function AddToCart(session: Option<Auth.Session>, db: Db, pid: ProductId, newId: OrderId): (out: Step<()>)
    ensures out.result.Ok? <==> Auth.SignedInUser(session).Ok? && pid in db.products
    ensures Auth.SignedInUser(session).Err? ==> out.result == Err(Auth.SignedInUser(session).error)
    ensures Auth.SignedInUser(session).Ok? && pid !in db.products ==> out.result == Err(ProductNotFound(pid))
    ensures out.result.Err? ==> out.db == db
    ensures out.db.products == db.products
    ensures out.result.Ok? ==>
      var uid := session.value.user.id;
      && |out.db.orders| == |db.orders| + (if PendingIndex(db.orders, uid).None? then 1 else 0)
      && var i := EnsurePending(db.orders, uid, newId).1;
         && IsPendingOf(out.db.orders[i], uid)
         && out.db.orders[i].totalAmount
            == (if i < |db.orders| then db.orders[i].totalAmount else 0) + db.products[pid].price
    ensures out.result.Ok? ==>
      UnitAdded(db, out.db, session.value.user.id, pid, newId, db.products[pid].price)
  {
    match Auth.SignedInUser(session)
    case Err(e) => Step(db, Err(e))
    case Ok(uid) =>
      if pid !in db.products then Step(db, Err(ProductNotFound(pid)))
      else Step(AddLine(db, uid, pid, newId, db.products[pid].price), Ok(()))
  }

  /** `addToCart` with the total raised by the unit price the item actually records. */
  function AddToCartCorrected(session: Option<Auth.Session>, db: Db, pid: ProductId, newId: OrderId): (out: Step<()>)
    ensures out.result.Ok? <==> Auth.SignedInUser(session).Ok? && pid in db.products
    ensures Auth.SignedInUser(session).Err? ==> out.result == Err(Auth.SignedInUser(session).error)
    ensures Auth.SignedInUser(session).Ok? && pid !in db.products ==> out.result == Err(ProductNotFound(pid))
    ensures out.result.Err? ==> out.db == db
    ensures out.db.products == db.products
    ensures out.result.Ok? ==>
      var uid := session.value.user.id;
      var line := ItemIndex(db.items, CartOrderId(db.orders, uid, newId), pid);
      UnitAdded(db, out.db, uid, pid, newId,
                if line.Some? then db.items[line.value].unitPrice else db.products[pid].price)
  {
    match Auth.SignedInUser(session)
    case Err(e) => Step(db, Err(e))
    case Ok(uid) =>
      if pid !in db.products then Step(db, Err(ProductNotFound(pid)))
      else Step(AddLine(db, uid, pid, newId, SnapshotCharge(db, uid, pid, newId)), Ok(()))
  }

  /**
    `removeFromCart(productId)`: nothing happens without a PENDING order or
    a matching item; otherwise the item loses a unit (or is deleted at one
    unit) and the total drops by the item's `unitPrice`.
  */
  function RemoveFromCart(session: Option<Auth.Session>, db: Db, pid: ProductId): (out: Step<()>)
    ensures out.result.Ok? <==> Auth.SignedInUser(session).Ok?
    ensures Auth.SignedInUser(session).Err? ==> out.result == Err(Auth.SignedInUser(session).error)
    ensures out.result.Err? ==> out.db == db
    ensures out.db.products == db.products && |out.db.orders| == |db.orders|
    ensures Auth.SignedInUser(session).Ok? ==>
      var uid := session.value.user.id;
      (PendingIndex(db.orders, uid).None?
       || ItemIndex(db.items, db.orders[PendingIndex(db.orders, uid).value].id, pid).None?)
      ==> out.db == db
    ensures Auth.SignedInUser(session).Ok? ==>
      var uid := session.value.user.id;
      var i := PendingIndex(db.orders, uid);
      (i.Some? && ItemIndex(db.items, db.orders[i.value].id, pid).Some?) ==>
        var k := ItemIndex(db.items, db.orders[i.value].id, pid).value;
        var it := db.items[k];
        && out.db.orders == db.orders[i.value := db.orders[i.value].(totalAmount := db.orders[i.value].totalAmount - it.unitPrice)]
        && (it.quantity > 1 ==> out.db.items == db.items[k := it.(quantity := it.quantity - 1)])
        && (it.quantity <= 1 ==> out.db.items == db.items[..k] + db.items[k + 1..])
  {
    match Auth.SignedInUser(session)
    case Err(e) => Step(db, Err(e))
    case Ok(uid) =>
      match PendingIndex(db.orders, uid)
      case None => Step(db, Ok(()))
      case Some(i) =>
        match ItemIndex(db.items, db.orders[i].id, pid)
        case None => Step(db, Ok(()))
        case Some(k) => Step(TakeLine(db, i, k), Ok(()))
  }

  /** The write step of `removeFromCart` on order `i` and item `k`. */
  function TakeLine(db: Db, i: nat, k: nat): Db
    requires i < |db.orders| && k < |db.items|
  {
    var it := db.items[k];
    var items := if it.quantity > 1 then db.items[k := it.(quantity := it.quantity - 1)]
                 else db.items[..k] + db.items[k + 1..];
    Db(db.products, db.orders[i := db.orders[i].(totalAmount := db.orders[i].totalAmount - it.unitPrice)], items)
  }

  // ---------------------------------------------------------------------------
  // Totals

  /** The as-written `addToCart` can break "total = sum of unitPrice * quantity". */
  lemma {:induction false} AddToCartBreaksTotals()
    ensures var db := Db(
              map["p" := Product("p", "Scarf", "scarf", "", 150, 5, ["img"])],
              [Order("o", "u", PENDING, 100, None, None)],
              [OrderItem("o", "p", 1, 100)]);
            var out := AddToCart(Some(Auth.Session(Auth.User("u", None))), db, "p", "n");
            && TotalsConsistent(db)
            && out.result.Ok?
            && out.db.orders[0].totalAmount == 250
            && OrderSum(out.db.items, "o") == 200
            && !TotalsConsistent(out.db)
  {
    var db := Db(
      map["p" := Product("p", "Scarf", "scarf", "", 150, 5, ["img"])],
      [Order("o", "u", PENDING, 100, None, None)],
      [OrderItem("o", "p", 1, 100)]);
    assert OrderSum(db.items, "o") == 100 by {
      assert db.items[1..] == [];
    }
    var out := AddToCart(Some(Auth.Session(Auth.User("u", None))), db, "p", "n");
    assert PendingIndex(db.orders, "u") == Some(0);
    assert ItemIndex(db.items, "o", "p") == Some(0);
    assert out.db.items == [OrderItem("o", "p", 2, 100)];
    assert OrderSum(out.db.items, "o") == 200 by {
      assert out.db.items[1..] == [];
    }
  }

  /** Appending the user's new PENDING order keeps totals consistent and ids unique. */
  lemma {:induction false} EnsurePendingKeepsTotals(db: Db, uid: UserId, newId: OrderId)
    requires Fresh(db, newId) && TotalsConsistent(db) && UniqueOrderIds(db)
    ensures var db0 := db.(orders := EnsurePending(db.orders, uid, newId).0);
      TotalsConsistent(db0) && UniqueOrderIds(db0)
  {
    if PendingIndex(db.orders, uid).None? {
      ItemsOfNone(db.items, newId);
    }
  }

  /**
    Adding one unit to order `i` and raising its total by that unit's
    recorded price keeps every order's total equal to its item sum.
  */
  lemma {:induction false} PutItemKeepsTotals(db: Db, i: nat, pid: ProductId, price: int, charge: int)
    requires TotalsConsistent(db) && UniqueOrderIds(db) && i < |db.orders|
    requires charge == (match ItemIndex(db.items, db.orders[i].id, pid)
                        case Some(k) => db.items[k].unitPrice
                        case None => price)
    ensures TotalsConsistent(Db(db.products,
      db.orders[i := db.orders[i].(totalAmount := db.orders[i].totalAmount + charge)],
      PutItem(db.items, db.orders[i].id, pid, price)))
  {
    var oid := db.orders[i].id;
    var items := PutItem(db.items, oid, pid, price);
    var orders := db.orders[i := db.orders[i].(totalAmount := db.orders[i].totalAmount + charge)];
    forall j | 0 <= j < |orders|
      ensures orders[j].totalAmount == OrderSum(items, orders[j].id)
    {
      var x := db.orders[j].id;
      match ItemIndex(db.items, oid, pid)
      case Some(k) =>
        OrderSumSetQuantity(db.items, k, db.items[k].quantity + 1, x);
      case None =>
        OrderSumAppend(db.items, [OrderItem(oid, pid, 1, price)], x);
        assert OrderSum([OrderItem(oid, pid, 1, price)], x) == (if oid == x then price else 0);
    }
  }

  /** The corrected `addToCart` keeps every order's total equal to its item sum. */
  lemma {:induction false} AddToCartCorrectedKeepsTotals(session: Option<Auth.Session>, db: Db, pid: ProductId, newId: OrderId)
    requires Fresh(db, newId) && TotalsConsistent(db) && UniqueOrderIds(db)
    ensures var out := AddToCartCorrected(session, db, pid, newId).db;
      TotalsConsistent(out) && UniqueOrderIds(out)
  {
    if Auth.SignedInUser(session).Ok? && pid in db.products {
      var uid := session.value.user.id;
      EnsurePendingKeepsTotals(db, uid, newId);
      var (orders, i) := EnsurePending(db.orders, uid, newId);
      var db0 := db.(orders := orders);
      PutItemKeepsTotals(db0, i, pid, db.products[pid].price, SnapshotCharge(db, uid, pid, newId));
    }
  }

  /** As written, `addToCart` keeps totals consistent when the item's snapshot price is the current price. */
  lemma {:induction false} AddToCartKeepsTotalsAtSnapshotPrice(session: Option<Auth.Session>, db: Db, pid: ProductId, newId: OrderId)
    requires Fresh(db, newId) && TotalsConsistent(db) && UniqueOrderIds(db)
    requires Auth.SignedInUser(session).Ok? && pid in db.products
    requires SnapshotCharge(db, session.value.user.id, pid, newId) == db.products[pid].price
    ensures TotalsConsistent(AddToCart(session, db, pid, newId).db)
  {
    AddToCartCorrectedKeepsTotals(session, db, pid, newId);
  }

  /** `removeFromCart` keeps every order's total equal to its item sum. */
  lemma {:induction false} RemoveFromCartKeepsTotals(session: Option<Auth.Session>, db: Db, pid: ProductId)
    requires TotalsConsistent(db) && UniqueOrderIds(db) && PositiveQuantities(db)
    ensures var out := RemoveFromCart(session, db, pid).db;
      TotalsConsistent(out) && UniqueOrderIds(out) && PositiveQuantities(out)
  {
    if Auth.SignedInUser(session).Ok? {
      var uid := session.value.user.id;
      match PendingIndex(db.orders, uid)
      case None =>
      case Some(i) =>
        match ItemIndex(db.items, db.orders[i].id, pid)
        case None =>
        case Some(k) => TakeLineKeepsTotals(db, i, k);
    }
  }

  lemma {:induction false} TakeLineKeepsTotals(db: Db, i: nat, k: nat)
    requires TotalsConsistent(db) && UniqueOrderIds(db) && PositiveQuantities(db)
    requires i < |db.orders| && k < |db.items| && db.items[k].orderId == db.orders[i].id
    ensures var out := TakeLine(db, i, k);
      TotalsConsistent(out) && UniqueOrderIds(out) && PositiveQuantities(out)
  {
    var it := db.items[k];
    var out := TakeLine(db, i, k);
    forall j | 0 <= j < |out.orders|
      ensures out.orders[j].totalAmount == OrderSum(out.items, out.orders[j].id)
    {
      var x := db.orders[j].id;
      if it.quantity > 1 {
        OrderSumSetQuantity(db.items, k, it.quantity - 1, x);
      } else {
        OrderSumDelete(db.items, k, x);
      }
    }
    if it.quantity <= 1 {
      forall m | 0 <= m < |out.items| ensures out.items[m].quantity >= 1 {
        if m < k {
          assert out.items[m] == db.items[m];
        } else {
          assert out.items[m] == db.items[m + 1];
        }
      }
    }
  }

  // ---------------------------------------------------------------------------
  // Round trips

  lemma {:induction false} PendingIndexSameOwners(a: seq<Order>, b: seq<Order>, uid: UserId)
    requires |a| == |b|
    requires forall j :: 0 <= j < |a| ==> a[j].userId == b[j].userId && a[j].status == b[j].status
    ensures PendingIndex(a, uid) == PendingIndex(b, uid)
  {
    var ra, rb := PendingIndex(a, uid), PendingIndex(b, uid);
    if ra.Some? {
      assert IsPendingOf(b[ra.value], uid);
    }
    if rb.Some? {
      assert IsPendingOf(a[rb.value], uid);
    }
  }

  lemma {:induction false} ItemIndexSameKeys(a: seq<OrderItem>, b: seq<OrderItem>, oid: OrderId, pid: ProductId)
    requires |a| == |b|
    requires forall j :: 0 <= j < |a| ==> a[j].orderId == b[j].orderId && a[j].productId == b[j].productId
    ensures ItemIndex(a, oid, pid) == ItemIndex(b, oid, pid)
  {
    var ra, rb := ItemIndex(a, oid, pid), ItemIndex(b, oid, pid);
    if ra.Some? {
      assert IsLine(b[ra.value], oid, pid);
    }
    if rb.Some? {
      assert IsLine(a[rb.value], oid, pid);
    }
  }

  lemma {:induction false} ItemIndexAppended(items: seq<OrderItem>, x: OrderItem, oid: OrderId, pid: ProductId)
    requires ItemIndex(items, oid, pid).None? && IsLine(x, oid, pid)
    ensures ItemIndex(items + [x], oid, pid) == Some(|items|)
  {
    var r := ItemIndex(items + [x], oid, pid);
    assert IsLine((items + [x])[|items|], oid, pid);
  }

  /**
    Taking back the unit that `AddLine` put into PENDING order `i`, charged
    at the price the item records, restores the database exactly. When the
    item already existed it must have held at least one unit.
  */
  lemma {:induction false} TakeUndoesAdd(db: Db, uid: UserId, pid: ProductId, newId: OrderId)
    requires pid in db.products
    requires PendingIndex(db.orders, uid).Some?
    requires var oid := db.orders[PendingIndex(db.orders, uid).value].id;
      ItemIndex(db.items, oid, pid).Some? ==> db.items[ItemIndex(db.items, oid, pid).value].quantity >= 1
    ensures var i := PendingIndex(db.orders, uid).value;
      var added := AddLine(db, uid, pid, newId, SnapshotCharge(db, uid, pid, newId));
      && PendingIndex(added.orders, uid) == Some(i)
      && ItemIndex(added.items, db.orders[i].id, pid).Some?
      && TakeLine(added, i, ItemIndex(added.items, db.orders[i].id, pid).value) == db
  {
    var i := PendingIndex(db.orders, uid).value;
    var oid := db.orders[i].id;
    var charge := SnapshotCharge(db, uid, pid, newId);
    var added := AddLine(db, uid, pid, newId, charge);
    assert EnsurePending(db.orders, uid, newId) == (db.orders, i);
    var orders := db.orders[i := db.orders[i].(totalAmount := db.orders[i].totalAmount + charge)];
    PendingIndexSameOwners(db.orders, orders, uid);
    match ItemIndex(db.items, oid, pid)
    case Some(k) =>
      var items := db.items[k := db.items[k].(quantity := db.items[k].quantity + 1)];
      assert added == Db(db.products, orders, items);
      ItemIndexSameKeys(db.items, items, oid, pid);
      TakeUndoesIncrement(db, i, k, charge);
    case None =>
      assert added == Db(db.products, orders, db.items + [OrderItem(oid, pid, 1, db.products[pid].price)]);
      TakeUndoesAppend(db, i, pid, charge);
  }

  lemma {:induction false} TakeUndoesIncrement(db: Db, i: nat, k: nat, charge: int)
    requires i < |db.orders| && k < |db.items|
    requires db.items[k].quantity >= 1 && charge == db.items[k].unitPrice
    ensures var items := db.items[k := db.items[k].(quantity := db.items[k].quantity + 1)];
      var added := Db(db.products, db.orders[i := db.orders[i].(totalAmount := db.orders[i].totalAmount + charge)], items);
      TakeLine(added, i, k) == db
  {
    var it := db.items[k];
    var items := db.items[k := it.(quantity := it.quantity + 1)];
    var orders := db.orders[i := db.orders[i].(totalAmount := db.orders[i].totalAmount + charge)];
    TakeLineDecrements(Db(db.products, orders, items), i, k);
    assert items[k := items[k].(quantity := items[k].quantity - 1)] == db.items;
    assert orders[i := orders[i].(totalAmount := orders[i].totalAmount - charge)] == db.orders;
  }

  /** `removeFromCart` on a line holding more than one unit lowers it in place. */
  lemma {:induction false} TakeLineDecrements(db: Db, i: nat, k: nat)
    requires i < |db.orders| && k < |db.items| && db.items[k].quantity > 1
    ensures TakeLine(db, i, k) == Db(db.products,
      db.orders[i := db.orders[i].(totalAmount := db.orders[i].totalAmount - db.items[k].unitPrice)],
      db.items[k := db.items[k].(quantity := db.items[k].quantity - 1)])
  {
  }

  lemma {:induction false} TakeUndoesAppend(db: Db, i: nat, pid: ProductId, price: int)
    requires i < |db.orders| && ItemIndex(db.items, db.orders[i].id, pid).None?
    ensures var oid := db.orders[i].id;
      var items := db.items + [OrderItem(oid, pid, 1, price)];
      var added := Db(db.products, db.orders[i := db.orders[i].(totalAmount := db.orders[i].totalAmount + price)], items);
      && ItemIndex(items, oid, pid) == Some(|db.items|)
      && TakeLine(added, i, |db.items|) == db
  {
    var x := OrderItem(db.orders[i].id, pid, 1, price);
    ItemIndexAppended(db.items, x, db.orders[i].id, pid);
    assert (db.items + [x])[..|db.items|] + (db.items + [x])[|db.items| + 1..] == db.items;
  }

  /** With a PENDING order in place, `removeFromCart` after the corrected `addToCart` restores everything. */
  lemma {:induction false} AddRemoveRoundTrip(session: Option<Auth.Session>, db: Db, pid: ProductId, newId: OrderId)
    requires PositiveQuantities(db) && pid in db.products
    requires Auth.SignedInUser(session).Ok?
    requires PendingIndex(db.orders, session.value.user.id).Some?
    ensures RemoveFromCart(session, AddToCartCorrected(session, db, pid, newId).db, pid).db == db
  {
    TakeUndoesAdd(db, session.value.user.id, pid, newId);
  }

  /** As written, the same round trip holds when the product's price equals the item's snapshot. */
  lemma {:induction false} AddRemoveRoundTripAtSnapshotPrice(session: Option<Auth.Session>, db: Db, pid: ProductId, newId: OrderId)
    requires PositiveQuantities(db) && pid in db.products
    requires Auth.SignedInUser(session).Ok?
    requires PendingIndex(db.orders, session.value.user.id).Some?
    requires SnapshotCharge(db, session.value.user.id, pid, newId) == db.products[pid].price
    ensures RemoveFromCart(session, AddToCart(session, db, pid, newId).db, pid).db == db
  {
    TakeUndoesAdd(db, session.value.user.id, pid, newId);
  }

  /** Without a PENDING order, add-then-remove leaves only the new empty PENDING order behind. */
  lemma {:induction false} AddRemoveLeavesEmptyOrder(session: Option<Auth.Session>, db: Db, pid: ProductId, newId: OrderId)
    requires Fresh(db, newId) && pid in db.products
    requires Auth.SignedInUser(session).Ok?
    requires PendingIndex(db.orders, session.value.user.id).None?
    ensures RemoveFromCart(session, AddToCart(session, db, pid, newId).db, pid).db
         == db.(orders := db.orders + [Order(newId, session.value.user.id, PENDING, 0, None, None)])
  {
    var uid := session.value.user.id;
    var price := db.products[pid].price;
    var orders := db.orders + [Order(newId, uid, PENDING, 0, None, None)];
    var db0 := db.(orders := orders);
    var added := AddToCart(session, db, pid, newId).db;
    assert added == AddLine(db, uid, pid, newId, price);
    PendingIndexOfNew(db.orders, uid, newId);
    assert EnsurePending(db.orders, uid, newId) == (orders, |db.orders|);
    assert EnsurePending(orders, uid, newId) == (orders, |db.orders|);
    assert AddLine(db0, uid, pid, newId, price) == added;
    ItemIndexOfFresh(db, newId, pid);
    assert SnapshotCharge(db0, uid, pid, newId) == price;
    TakeUndoesAdd(db0, uid, pid, newId);
    var k := ItemIndex(added.items, newId, pid).value;
    assert RemoveFromCart(session, added, pid).db == TakeLine(added, |db.orders|, k);
  }

  /** A fresh order id has no items. */
  lemma {:induction false} ItemIndexOfFresh(db: Db, newId: OrderId, pid: ProductId)
    requires Fresh(db, newId)
    ensures ItemIndex(db.items, newId, pid).None?
  {
  }

  lemma {:induction false} PendingIndexOfNew(orders: seq<Order>, uid: UserId, newId: OrderId)
    requires PendingIndex(orders, uid).None?
    ensures PendingIndex(orders + [Order(newId, uid, PENDING, 0, None, None)], uid) == Some(|orders|)
  {
    var all := orders + [Order(newId, uid, PENDING, 0, None, None)];
    assert IsPendingOf(all[|orders|], uid);
  }
}

=== FILE: product_form.dfy ===
/**
  `ProductSchema` of components/admin/ProductForm.tsx, the zod schema the
  admin product form validates against, as a function from the form's
  record to either the parsed values or the list of issues. `price` and
  `stock` go through `z.coerce.number()`; the record holds the number the
  coercion produced, where `NaN` is what a missing or non-numeric input
  becomes. zod reports every failing check, field by field.
*/
module ProductForm {
  import opened Common

  /** A JS number as the coercion leaves it: NaN, or a finite value. */
  datatype Num = NaN | Finite(value: real)

  /** The form's values after coercion, before validation. */
  datatype RawProduct = RawProduct(
    id: Option<string>,
    title: string,
    slug: string,
    description: Option<string>,
    price: Num,
    stock: Num,
    images: seq<string>)

  /** `ProductValues`: what a successful parse yields. */
  datatype ProductValues = ProductValues(
    id: Option<string>,
    title: string,
    slug: string,
    description: string,
    price: real,
    stock: real,
    images: seq<string>)

  /** One message per failed check. */
  datatype Issue =
    | TitleRequired
    | SlugRequired
    | PriceRequired
    | PriceNegative
    | StockRequired
    | StockNegative
    | StockBelowOne
    | ImagesRequired

  /** The schema's requirements, field by field. */
  predicate Valid(raw: RawProduct) {
    && |raw.title| >= 1
    && |raw.slug| >= 1
    && raw.price.Finite? && raw.price.value >= 0.0
    && raw.stock.Finite? && raw.stock.value >= 1.0
    && |raw.images| >= 1
  }

  /** `z.coerce.number(...).nonnegative(...)` on `price`. */
  predicate PriceFails(price: Num, issue: Issue) {
    || (issue == PriceRequired && price.NaN?)
    || (issue == PriceNegative && price.Finite? && price.value < 0.0)
  }

  /** `z.coerce.number(...).nonnegative().min(1)` on `stock`: a negative stock fails both checks. */
  predicate StockFails(stock: Num, issue: Issue) {
    || (issue == StockRequired && stock.NaN?)
    || (issue == StockNegative && stock.Finite? && stock.value < 0.0)
    || (issue == StockBelowOne && stock.Finite? && stock.value < 1.0)
  }

  /** Whether the check behind `issue` fails for `raw`. */
  predicate Fails(raw: RawProduct, issue: Issue) {
    || (issue == TitleRequired && |raw.title| == 0)
    || (issue == SlugRequired && |raw.slug| == 0)
    || PriceFails(raw.price, issue)
    || StockFails(raw.stock, issue)
    || (issue == ImagesRequired && |raw.images| == 0)
  }

  function PriceIssues(price: Num): (r: seq<Issue>)
    ensures forall x :: x in r <==> PriceFails(price, x)
  {
    match price
    case NaN => [PriceRequired]
    case Finite(v) => if v < 0.0 then [PriceNegative] else []
  }

  function StockIssues(stock: Num): (r: seq<Issue>)
    ensures forall x :: x in r <==> StockFails(stock, x)
  {
    match stock
    case NaN => [StockRequired]
    case Finite(v) => (if v < 0.0 then [StockNegative] else []) + (if v < 1.0 then [StockBelowOne] else [])
  }

  /** Every issue zod reports for `raw`, in field order: exactly the failing checks. */
  function Issues(raw: RawProduct): (r: seq<Issue>)
    ensures forall x :: x in r <==> Fails(raw, x)
  {
    var title := if |raw.title| == 0 then [TitleRequired] else [];
    var slug := if |raw.slug| == 0 then [SlugRequired] else [];
    var images := if |raw.images| == 0 then [ImagesRequired] else [];
    title + slug + PriceIssues(raw.price) + StockIssues(raw.stock) + images
  }

  /** `ProductSchema.safeParse(raw)`: the values with `description` defaulted to "", or the issues. */
  function Parse(raw: RawProduct): (r: Result<ProductValues, seq<Issue>>)
    ensures r.Ok? <==> Valid(raw)
    ensures r.Ok? ==>
      && r.value.id == raw.id
      && r.value.title == raw.title && r.value.slug == raw.slug
      && r.value.description == raw.description.GetOr("")
      && r.value.price == raw.price.value && r.value.stock == raw.stock.value
      && r.value.images == raw.images
    ensures r.Err? ==> |r.error| > 0 && r.error == Issues(raw)
  {
    var issues := Issues(raw);
    if |issues| > 0 then Err(issues)
    else
      assert !(PriceRequired in issues) && !(StockRequired in issues);
      Ok(ProductValues(raw.id, raw.title, raw.slug, raw.description.GetOr(""),
                       raw.price.value, raw.stock.value, raw.images))
  }

  /** No issues is exactly the schema's requirements holding. */
  lemma {:induction false} NoIssuesIffValid(raw: RawProduct)
    ensures |Issues(raw)| == 0 <==> Valid(raw)
  {
    var r := Issues(raw);
    if |r| > 0 {
      var first := r[0];
      assert first in r;
    }
  }

  /** A stock of 0 is rejected, with the "must be a valid number" message only. */
  lemma {:induction false} ZeroStockRejected(raw: RawProduct)
    requires raw.stock == Finite(0.0)
    ensures Parse(raw).Err? && StockBelowOne in Parse(raw).error && StockNegative !in Parse(raw).error
  {
  }

  /** The schema has no integer check: a fractional stock of at least one passes. */
  lemma {:induction false} FractionalStockAccepted(raw: RawProduct)
    requires |raw.title| >= 1 && |raw.slug| >= 1 && raw.price == Finite(0.0) && |raw.images| >= 1
    requires raw.stock == Finite(1.5)
    ensures Parse(raw).Ok? && Parse(raw).value.stock == 1.5
  {
  }
}

=== FILE: store.dfy ===
/**
  The persistent state behind the storefront's server actions: the
  Product, Order and OrderItem tables, held as plain values. Products are
  keyed by id; orders and order items are kept in insertion order, so
  that a `findFirst` without an `orderBy` is "the first match in the
  sequence". An order item's identity is its position.
*/
module Store {
  import opened Common

  type ProductId = string
  type OrderId = string
  type UserId = string

  /** Money is an integer number of paise. */
  datatype Product = Product(
    id: ProductId,
    title: string,
    slug: string,
    description: string,
    price: int,
    stock: int,
    images: seq<string>)

  datatype Status = PENDING | PAID | FAILED

  /** `currency` is `None` when the row was created without one (the schema default applies). */
  datatype Order = Order(
    id: OrderId,
    userId: UserId,
    status: Status,
    totalAmount: int,
    currency: Option<string>,
    paymentId: Option<string>)

  datatype OrderItem = OrderItem(orderId: OrderId, productId: ProductId, quantity: int, unitPrice: int)

  datatype Db = Db(products: map<ProductId, Product>, orders: seq<Order>, items: seq<OrderItem>)

  /** The errors the server actions throw, and the redirects of the auth gate. */
  datatype Failure =
    | Redirect(path: string)
    | Unauthorized
    | CartEmpty
    | ProductNotFound(productId: ProductId)
    | InvalidTotal
    | InsufficientStock(productId: ProductId)
    | GatewayError(body: string)
    | OrderNotFound(orderId: OrderId)
    | InvalidSignature

  /** The state after an action together with what it returned or threw. */
  datatype Step<+T> = Step(db: Db, result: Result<T, Failure>)

  predicate HasOrder(orders: seq<Order>, id: OrderId) {
    exists i :: 0 <= i < |orders| && orders[i].id == id
  }

  /** Neither an order nor an order item uses `id` yet: what the id generator guarantees. */
  predicate Fresh(db: Db, id: OrderId) {
    && !HasOrder(db.orders, id)
    && forall k :: 0 <= k < |db.items| ==> db.items[k].orderId != id
  }

  /** `findUnique({ where: { id } })` on the Order table, as a position. */
  function IndexOfOrder(orders: seq<Order>, id: OrderId): (r: Option<nat>)
    ensures r.Some? ==> r.value < |orders| && orders[r.value].id == id
    ensures r.Some? ==> forall j :: 0 <= j < r.value ==> orders[j].id != id
    ensures r.None? <==> !HasOrder(orders, id)
  {
    if |orders| == 0 then None
    else if orders[0].id == id then Some(0)
    else
      match IndexOfOrder(orders[1..], id)
      case Some(k) => Some(k + 1)
      case None =>
        assert forall j :: 1 <= j < |orders| ==> orders[j] == orders[1..][j - 1];
        None
  }

  /** The row update `{ status: PAID, paymentId }` shared by both payment paths. */
  function MarkPaid(orders: seq<Order>, i: nat, paymentId: string): (r: seq<Order>)
    requires i < |orders|
    ensures |r| == |orders|
    ensures r[i].status == PAID && r[i].paymentId == Some(paymentId)
    ensures r[i].id == orders[i].id && r[i].userId == orders[i].userId
    ensures r[i].totalAmount == orders[i].totalAmount && r[i].currency == orders[i].currency
    ensures forall j :: 0 <= j < |orders| && j != i ==> r[j] == orders[j]
  {
    orders[i := orders[i].(status := PAID, paymentId := Some(paymentId))]
  }

  /** `findMany({ where: { orderId } })` on the OrderItem table. */
  function ItemsOf(items: seq<OrderItem>, oid: OrderId): (r: seq<OrderItem>)
    ensures |r| <= |items|
    ensures forall k :: 0 <= k < |r| ==> r[k].orderId == oid && r[k] in items
  {
    if |items| == 0 then []
    else (if items[0].orderId == oid then [items[0]] else []) + ItemsOf(items[1..], oid)
  }

  /** Sum of `unitPrice * quantity` over the items of order `oid`. */
  function OrderSum(items: seq<OrderItem>, oid: OrderId): int {
    if |items| == 0 then 0
    else (if items[0].orderId == oid then items[0].unitPrice * items[0].quantity else 0)
         + OrderSum(items[1..], oid)
  }

  /** Units of product `pid` across `items`. */
  function ItemQty(items: seq<OrderItem>, pid: ProductId): int {
    if |items| == 0 then 0
    else (if items[0].productId == pid then items[0].quantity else 0) + ItemQty(items[1..], pid)
  }

  /** Number of order items that refer to product `pid`. */
  function References(items: seq<OrderItem>, pid: ProductId): (n: nat)
    ensures n == 0 <==> forall k :: 0 <= k < |items| ==> items[k].productId != pid
  {
    if |items| == 0 then 0
    else (if items[0].productId == pid then 1 else 0) + References(items[1..], pid)
  }

  /** Every order's `totalAmount` is the sum of its items' `unitPrice * quantity`. */
  predicate TotalsConsistent(db: Db) {
    forall i :: 0 <= i < |db.orders| ==> db.orders[i].totalAmount == OrderSum(db.items, db.orders[i].id)
  }

  /** Order ids are unique, as the primary key guarantees. */
  predicate UniqueOrderIds(db: Db) {
    forall i, j :: 0 <= i < j < |db.orders| ==> db.orders[i].id != db.orders[j].id
  }

  /** Every stored order item holds at least one unit. */
  predicate PositiveQuantities(db: Db) {
    forall k :: 0 <= k < |db.items| ==> db.items[k].quantity >= 1
  }

  /** No order item refers to a product that is not in the catalogue. */
  predicate NoDanglingItems(db: Db) {
    forall k :: 0 <= k < |db.items| ==> db.items[k].productId in db.products
  }

  // ---------------------------------------------------------------------------
  // How the sums react to the table edits the actions perform

  lemma {:induction false} OrderSumAppend(a: seq<OrderItem>, b: seq<OrderItem>, oid: OrderId)
    ensures OrderSum(a + b, oid) == OrderSum(a, oid) + OrderSum(b, oid)
  {
    if |a| == 0 {
      assert a + b == b;
    } else {
      assert (a + b)[1..] == a[1..] + b;
      OrderSumAppend(a[1..], b, oid);
    }
  }

  lemma {:induction false} ItemQtyAppend(a: seq<OrderItem>, b: seq<OrderItem>, pid: ProductId)
    ensures ItemQty(a + b, pid) == ItemQty(a, pid) + ItemQty(b, pid)
  {
    if |a| == 0 {
      assert a + b == b;
    } else {
      assert (a + b)[1..] == a[1..] + b;
      ItemQtyAppend(a[1..], b, pid);
    }
  }

  lemma {:induction false} ItemsOfAppend(a: seq<OrderItem>, b: seq<OrderItem>, oid: OrderId)
    ensures ItemsOf(a + b, oid) == ItemsOf(a, oid) + ItemsOf(b, oid)
  {
    if |a| == 0 {
      assert a + b == b;
    } else {
      var head := if a[0].orderId == oid then [a[0]] else [];
      assert (a + b)[0] == a[0] && (a + b)[1..] == a[1..] + b;
      assert ItemsOf(a + b, oid) == head + ItemsOf(a[1..] + b, oid);
      ItemsOfAppend(a[1..], b, oid);
      assert ItemsOf(a, oid) == head + ItemsOf(a[1..], oid);
    }
  }

  lemma {:induction false} ItemsOfNone(items: seq<OrderItem>, oid: OrderId)
    requires forall k :: 0 <= k < |items| ==> items[k].orderId != oid
    ensures ItemsOf(items, oid) == []
    ensures OrderSum(items, oid) == 0
  {
    if |items| > 0 {
      ItemsOfNone(items[1..], oid);
    }
  }

  lemma {:induction false} ItemsOfAll(items: seq<OrderItem>, oid: OrderId)
    requires forall k :: 0 <= k < |items| ==> items[k].orderId == oid
    ensures ItemsOf(items, oid) == items
  {
    if |items| > 0 {
      ItemsOfAll(items[1..], oid);
      assert [items[0]] + items[1..] == items;
    }
  }

  /** Splitting a list around position `i`. */
  lemma {:induction false} Split3(s: seq<OrderItem>, i: int)
    requires 0 <= i < |s|
    ensures s == s[..i] + [s[i]] + s[i + 1..]
  {
  }

  /** The sum over a single item. */
  lemma {:induction false} OrderSumOne(x: OrderItem, oid: OrderId)
    ensures OrderSum([x], oid) == (if x.orderId == oid then x.unitPrice * x.quantity else 0)
  {
    assert [x][1..] == [];
  }

  /** Changing one item's quantity moves its order's sum by `unitPrice` per unit. */
  lemma {:induction false} OrderSumSetQuantity(items: seq<OrderItem>, i: int, q: int, oid: OrderId)
    requires 0 <= i < |items|
    ensures OrderSum(items[i := items[i].(quantity := q)], oid)
         == OrderSum(items, oid)
            + (if items[i].orderId == oid then items[i].unitPrice * (q - items[i].quantity) else 0)
  {
    var x := items[i];
    var y := x.(quantity := q);
    var pre, post := items[..i], items[i + 1..];
    Split3(items, i);
    assert items[i := y] == pre + [y] + post;
    OrderSumAppend(pre + [x], post, oid);
    OrderSumAppend(pre, [x], oid);
    OrderSumAppend(pre + [y], post, oid);
    OrderSumAppend(pre, [y], oid);
    OrderSumOne(x, oid);
    OrderSumOne(y, oid);
    Distribute(x.unitPrice, q, x.quantity);
  }

  lemma {:induction false} Distribute(a: int, b: int, c: int)
    ensures a * b - a * c == a * (b - c)
  {
  }

  /** Deleting one item removes its `unitPrice * quantity` from its order's sum. */
  lemma {:induction false} OrderSumDelete(items: seq<OrderItem>, i: int, oid: OrderId)
    requires 0 <= i < |items|
    ensures OrderSum(items[..i] + items[i + 1..], oid)
         == OrderSum(items, oid)
            - (if items[i].orderId == oid then items[i].unitPrice * items[i].quantity else 0)
  {
    var x := items[i];
    Split3(items, i);
    OrderSumAppend(items[..i] + [x], items[i + 1..], oid);
    OrderSumAppend(items[..i], [x], oid);
    OrderSumAppend(items[..i], items[i + 1..], oid);
    OrderSumOne(x, oid);
  }
}

=== FILE: webhook.dfy ===
/**
  The Razorpay webhook, `POST` of app/api/webhooks/razorpay/route.ts.
  The raw body must carry a valid HMAC-SHA256 in the
  `x-razorpay-signature` header; a `payment.captured` event then marks a
  shop order PAID, found by the payment's `receipt` when it has one and
  otherwise by the first order that a `paymentId` filter on the gateway
  order id selects. HMAC-SHA256 under the key secret and `JSON.parse` are the `mac`
  and `parse` arguments.
*/
module Webhook {
  import opened Common
  import opened Store
  import Payment
  import Auth

  const CapturedEvent := "payment.captured"

  /** A JSON field as it reaches a Prisma filter: absent (`undefined`), `null`, or a string. */
  datatype JsonId = Undefined | NullId | Id(value: string)

  /** `data.payload.payment.entity`: `id` is the payment id, `orderId` the gateway order id. */
  datatype PaymentEntity = PaymentEntity(id: string, orderId: JsonId, receipt: Option<string>)

  /**
    What the handler sees of `JSON.parse(body)`: a syntax error, `null`
    (reading `.event` on it throws), or a value whose `event` and whose
    `payload.payment.entity` may be missing (`None`).
  */
  datatype Json = Invalid | Null | Value(event: Option<string>, payment: Option<PaymentEntity>)

  datatype Outcome = Handled | BadSignature | BadJson | ServerError

  /** The HTTP status of each response. */
  function StatusCode(o: Outcome): (code: int)
    ensures code == 200 <==> o == Handled
    ensures code == 400 <==> o == BadSignature || o == BadJson
    ensures code == 500 <==> o == ServerError
  {
    match o
    case Handled => 200
    case BadSignature => 400
    case BadJson => 400
    case ServerError => 500
  }

  /** A receipt is used only when it is truthy: present and not the empty string. */
  predicate HasReceipt(e: PaymentEntity) {
    e.receipt.Some? && e.receipt.value != ""
  }

  /**
    Prisma's `where: { paymentId: ref }`: an `undefined` value drops the
    filter, `null` asks for a missing payment id, a string for that id.
  */
  predicate MatchesPaymentId(o: Order, ref: JsonId) {
    match ref
    case Undefined => true
    case NullId => o.paymentId.None?
    case Id(s) => o.paymentId == Some(s)
  }

  /** `order.findFirst({ where: { paymentId: ref } })`, as a position. */
  function IndexOfPayment(orders: seq<Order>, ref: JsonId): (r: Option<nat>)
    ensures r.Some? ==> r.value < |orders| && MatchesPaymentId(orders[r.value], ref)
    ensures r.Some? ==> forall j :: 0 <= j < r.value ==> !MatchesPaymentId(orders[j], ref)
    ensures r.None? <==> forall j :: 0 <= j < |orders| ==> !MatchesPaymentId(orders[j], ref)
  {
    if |orders| == 0 then None
    else if MatchesPaymentId(orders[0], ref) then Some(0)
    else
      assert forall j :: 1 <= j < |orders| ==> orders[j] == orders[1..][j - 1];
      match IndexOfPayment(orders[1..], ref)
      case Some(k) => Some(k + 1)
      case None => None
  }

  /** Where a captured payment lands: the receipt's order, or the fallback lookup. */
  function Target(orders: seq<Order>, e: PaymentEntity): (r: Option<nat>)
    ensures r.Some? ==> r.value < |orders|
    ensures HasReceipt(e) ==> (r.Some? <==> HasOrder(orders, e.receipt.value))
    ensures HasReceipt(e) && r.Some? ==> orders[r.value].id == e.receipt.value
    ensures !HasReceipt(e) ==> (r.None? <==> forall j :: 0 <= j < |orders| ==> !MatchesPaymentId(orders[j], e.orderId))
    ensures !HasReceipt(e) && r.Some? ==>
      && MatchesPaymentId(orders[r.value], e.orderId)
      && forall j :: 0 <= j < r.value ==> !MatchesPaymentId(orders[j], e.orderId)
  {
    if HasReceipt(e) then IndexOfOrder(orders, e.receipt.value)
    else IndexOfPayment(orders, e.orderId)
  }

  /** The `payment.captured` branch: mark the target order PAID with the payment id, if there is one. */
  function Capture(db: Db, e: PaymentEntity): (r: Db)
    ensures r.products == db.products && r.items == db.items && |r.orders| == |db.orders|
    ensures HasReceipt(e) && !HasOrder(db.orders, e.receipt.value) ==> r == db
    ensures !HasReceipt(e) && (forall j :: 0 <= j < |db.orders| ==> !MatchesPaymentId(db.orders[j], e.orderId))
            ==> r == db
    ensures Target(db.orders, e).None? ==> r == db
    ensures Target(db.orders, e).Some? ==>
      var i := Target(db.orders, e).value;
      && r.orders[i] == db.orders[i].(status := PAID, paymentId := Some(e.id))
      && forall j :: 0 <= j < |db.orders| && j != i ==> r.orders[j] == db.orders[j]
    ensures HasReceipt(e) && HasOrder(db.orders, e.receipt.value) ==>
      exists i :: 0 <= i < |db.orders| && db.orders[i].id == e.receipt.value
        && r.orders[i].status == PAID && r.orders[i].paymentId == Some(e.id)
  {
    match Target(db.orders, e)
    case None => db
    case Some(i) => db.(orders := MarkPaid(db.orders, i, e.id))
  }

  /** The handler: the signature check, the parse, and the event dispatch, in the route's order. */
  function Post(
    mac: string -> string, parse: string -> Json,
    body: string, header: Option<string>, db: Db): (out: (Db, Outcome))
    ensures out.1 == BadSignature <==> mac(body) != header.GetOr("")
    ensures out.1 == BadJson <==> mac(body) == header.GetOr("") && parse(body) == Invalid
    ensures out.1 == ServerError <==>
      mac(body) == header.GetOr("")
      && (parse(body) == Null
          || (parse(body).Value? && parse(body).event == Some(CapturedEvent) && parse(body).payment.None?))
    ensures out.1 != Handled ==> out.0 == db
    ensures out.0 != db ==>
      && parse(body).Value? && parse(body).event == Some(CapturedEvent) && parse(body).payment.Some?
      && out.0 == Capture(db, parse(body).payment.value)
    ensures mac(body) == header.GetOr("") && parse(body).Value? && parse(body).event != Some(CapturedEvent)
            ==> out == (db, Handled)
    ensures
      (mac(body) == header.GetOr("") && parse(body).Value? && parse(body).event == Some(CapturedEvent)
       && parse(body).payment.Some?)
      ==> out == (Capture(db, parse(body).payment.value), Handled)
  {
    if mac(body) != header.GetOr("") then (db, BadSignature)
    else
      match parse(body)
      case Invalid => (db, BadJson)
      case Null => (db, ServerError)
      case Value(event, payment) =>
        if event != Some(CapturedEvent) then (db, Handled)
        else
          match payment
          case None => (db, ServerError)
          case Some(e) => (Capture(db, e), Handled)
  }

  // ---------------------------------------------------------------------------
  // Redelivery and agreement with the client-side verification

  /** Delivering a captured payment that carries a receipt twice is delivering it once. */
  lemma {:induction false} CaptureIdempotent(db: Db, e: PaymentEntity)
    requires HasReceipt(e)
    ensures Capture(Capture(db, e), e) == Capture(db, e)
  {
    match IndexOfOrder(db.orders, e.receipt.value)
    case None =>
    case Some(i) =>
      Payment.MarkPaidKeepsIds(db.orders, i, e.id, e.receipt.value);
      Payment.MarkPaidIdempotent(db.orders, i, e.id);
  }

  /** The whole handler, for a delivery whose payment carries a receipt, is idempotent too. */
  lemma {:induction false} PostIdempotent(
    mac: string -> string, parse: string -> Json,
    body: string, header: Option<string>, db: Db)
    requires parse(body).Value? && parse(body).payment.Some? ==> HasReceipt(parse(body).payment.value)
    ensures var once := Post(mac, parse, body, header, db);
      Post(mac, parse, body, header, once.0) == once
  {
    var once := Post(mac, parse, body, header, db);
    if once.0 != db {
      CaptureIdempotent(db, parse(body).payment.value);
    }
  }

  /**
    Without a receipt a redelivery is not idempotent: the first delivery
    rewrites the matching order's `paymentId`, so the second one finds the
    next order that still carries the gateway order id.
  */
  lemma {:induction false} FallbackRedeliveryMarksAnother()
    ensures var db := Db(map[], [Order("a", "u", PENDING, 100, None, Some("rzp")),
                                 Order("b", "v", FAILED, 300, None, Some("rzp"))], []);
            var e := PaymentEntity("pay", Id("rzp"), None);
            var once := Capture(db, e);
            && once.orders[0].status == PAID && once.orders[1] == db.orders[1]
            && Capture(once, e) != once
            && Capture(once, e).orders[1].status == PAID
  {
    var db := Db(map[], [Order("a", "u", PENDING, 100, None, Some("rzp")),
                         Order("b", "v", FAILED, 300, None, Some("rzp"))], []);
    var e := PaymentEntity("pay", Id("rzp"), None);
    assert IndexOfPayment(db.orders, Id("rzp")) == Some(0);
    var once := Capture(db, e);
    assert IndexOfPayment(once.orders, Id("rzp")) == Some(1);
  }

  /**
    A captured payment without a receipt whose `order_id` is `null` lands on
    the first order that has no payment id yet, whoever owns it and whatever
    its status.
  */
  lemma {:induction false} NullOrderIdMarksFirstUnpaid(
    mac: string -> string, parse: string -> Json,
    body: string, header: Option<string>, db: Db, i: nat)
    requires mac(body) == header.GetOr("")
    requires parse(body).Value? && parse(body).event == Some(CapturedEvent) && parse(body).payment.Some?
    requires !HasReceipt(parse(body).payment.value) && parse(body).payment.value.orderId == NullId
    requires i < |db.orders| && db.orders[i].paymentId.None?
    requires forall j :: 0 <= j < i ==> db.orders[j].paymentId.Some?
    ensures Post(mac, parse, body, header, db).1 == Handled
    ensures Post(mac, parse, body, header, db).0.orders[i]
            == db.orders[i].(status := PAID, paymentId := Some(parse(body).payment.value.id))
  {
  }

  /**
    With `order_id` absent the lookup has no filter at all, so the first
    order of the table is marked PAID.
  */
  lemma {:induction false} UndefinedOrderIdMarksFirstOrder(
    mac: string -> string, parse: string -> Json,
    body: string, header: Option<string>, db: Db)
    requires mac(body) == header.GetOr("")
    requires parse(body).Value? && parse(body).event == Some(CapturedEvent) && parse(body).payment.Some?
    requires !HasReceipt(parse(body).payment.value) && parse(body).payment.value.orderId == Undefined
    requires |db.orders| > 0
    ensures Post(mac, parse, body, header, db).0.orders[0]
            == db.orders[0].(status := PAID, paymentId := Some(parse(body).payment.value.id))
  {
  }

  /**
    After the client-side verification marked the receipt's order PAID with
    the same payment id, the webhook changes nothing; and verification after
    the webhook changes nothing either. The two paths agree.
  */
  lemma {:induction false} VerifyThenCaptureAgree(
    mac: (string, string) -> string, secret: string,
    session: Option<Auth.Session>, p: Payment.VerifyPayload, db: Db, e: PaymentEntity)
    requires HasReceipt(e) && e.receipt.value == p.orderId && e.id == p.paymentId
    requires Payment.VerifyRazorpayPayment(mac, secret, session, p, db).result.Ok?
    ensures var verified := Payment.VerifyRazorpayPayment(mac, secret, session, p, db).db;
      && Capture(verified, e) == verified
      && verified == Capture(db, e)
      && Payment.VerifyRazorpayPayment(mac, secret, session, p, Capture(db, e)).db == Capture(db, e)
  {
    var i := IndexOfOrder(db.orders, p.orderId).value;
    Payment.MarkPaidKeepsIds(db.orders, i, p.paymentId, p.orderId);
    Payment.MarkPaidIdempotent(db.orders, i, p.paymentId);
  }
}
